=== FILE: README.md ===
# SkillSync session core in Dafny

SkillSync is a training simulator. A user uploads a technical manual, and a
language model then plays a scenario based on it. The user types actions, and
the model's replies are revealed with a typewriter effect. Inline
`[Image of …]` cues in a reply become generated schematics. This project
models the two sequential cores of that system as pure functions over
immutable records and proves properties about them:

- **The browser session engine** (`src/components/SimulationInterface.jsx`):
  - `sendMove` and the start effect.
  - Reply cleaning, which removes role tokens and trims.
  - Status classification, with its tones.
  - The typewriter reveal as a tick-driven machine.
  - The split of the displayed text on image cues.
  - The `ErnieDiagram` loading state.
  - The voice-input flag, the recognition locale and the status classes.

  Front-end strings are sequences of UTF-16 code units (`JsText.Str`), as a
  JavaScript string is.
- **The server's session bookkeeping** (`backend/main.py`):
  - Text extraction from an upload: the PDF text layer, with OCR as a fallback.
  - `/upload`: the length threshold, history reset and topic derivation.
  - `/simulate`: the manual guard, the append-only log, the prompt window and
    cue augmentation.
  - `/generate_image`: the data URL and the fallback link.

  The single `global_context` dictionary becomes the `Backend.Context` record,
  which is threaded through the steps. Back-end strings are Dafny `string`,
  i.e. code points, as a Python `str` is.

Foreign services are parameters. These are the PDF reader (`PdfSource`), the
OCR engine (`OcrOutcome`), the language model (`Llm`), the image service
(`Generation`) and, in the browser, the outcome of each HTTP call (`Outcome`,
`Fetch`) and the speech recognizer (`SpeechEvent`). The language model is a
function from a structured `Prompt` to what the completion call does:
return text or raise. `PromptText` gives the exact f-string text of each
prompt. A model that sees only the text is the special case
`p => f(PromptText(p))`.

Module layout:

| file | module | what it holds |
|---|---|---|
| common.dfy | `Common` | `Option`, substring search, concatenation, trimming over any whitespace class |
| js_text.dfy | `JsText` | UTF-16 units, `trim`, `toLowerCase` (ASCII) |
| tones.dfy | `Tones` | the three tones `playTone` is asked for |
| reply.dfy | `Reply` | role-token removal, cleaning, status classification |
| reveal.dfy | `Reveal` | the typewriter job and its ticks |
| cues.dfy | `Cues` | `split` on the cue pattern and the rendering of the parts |
| diagram.dfy | `Diagram` | the `ErnieDiagram` state machine |
| session.dfy | `Session` | the screen's state and its events |
| py_text.dfy | `PyText` | `strip`, `lower`, slicing, `join`, `replace` |
| extraction.dfy | `Extraction` | `extract_text_from_file` |
| backend.dfy | `Backend` | the context, `/upload`, `/simulate`, visual concepts |
| image_endpoint.dfy | `ImageEndpoint` | `/generate_image` |

### Behaviour modelled as the code has it

The model follows the code in these places, where one might expect otherwise:

- **Classification precedence.** The success test runs after the failure
  test and overwrites it. A reply that matches both is SAFE, not CRITICAL
  (`Reply.Classify`). `correct` also matches inside `incorrect`
  (`Reply.IncorrectReplyIsSafe`).
- **No pending guard in `sendMove`.** A second visible action is stopped only
  because the input and the button are disabled while `loading` is set
  (`Session.ExecuteStep`). The start effect calls `sendMove` without looking
  at `loading`. Choosing another language, or toggling sound, before the first
  user turn gives `sendMove` a new identity. That re-runs the effect and sends
  a second hidden start request while the first is still pending
  (`Session.StartEffectRefiresWhilePending`, `Session.ToggleSoundStep`,
  `Session.LanguageStep`). So the start action is not issued exactly once.
- **The request carries the extended history.** The history sent with a
  visible action already ends with that action's user turn
  (`Session.SendMove`).
- **The sound setting of a reply is the one it was sent with.** The reply is
  handled inside the `sendMove` closure, which captured `soundOn` when it was
  created. The sound button stays enabled while a call is pending. Toggling it
  then does not change the tones of that reply (`Session.Settle`,
  `Session.ToneFollowsSendTimeSound`).
  Likewise, the recognizer's start beep reads the `soundOn` captured by the
  `startListening` closure at the microphone click
  (`Session.BeepFollowsClickTimeSound`).
- **The connection sentinel.** The component itself sets the sentinel text and
  CRITICAL status in its `catch`, with no tone (`Session.Settle`). The user
  turn appended before the call stays.

## Model

| member | source | states |
|---|---|---|
| Session.Initial | src/components/SimulationInterface.jsx:211-219 | The screen starts with an empty history, an empty input, IDLE status, sound on, English, the microphone off and no request pending. The reveal job is a valid, running job over the empty text with nothing shown. |
| Session.SendMove | src/components/SimulationInterface.jsx:226-243 | A blank or whitespace-only action changes nothing and sends nothing. Any other action sets `loading` and issues one request with the action, the history and the language. A visible action appends exactly one user turn holding the action. A hidden action leaves the history unchanged. No other field changes. |
| Session.StartEffect | src/components/SimulationInterface.jsx:275-279 | The effect issues a request iff the history is empty. That request is the start action with an empty history. It never changes the history, and it sets `loading` only when it sends. |
| Session.StartEffectIsHiddenSend | src/components/SimulationInterface.jsx:275-279 | With an empty history the effect is exactly `sendMove(START SIMULATION, hidden)`, because the start action is not blank. |
| Session.ShowText | src/components/SimulationInterface.jsx:282-288 | Storing a new text restarts the reveal from an empty display. Storing the same text again leaves the running reveal alone. Both keep the reveal invariant. |
| Session.Settle | src/components/SimulationInterface.jsx:245-271 | A reply stores its cleaned text and its classification. Its tones are those of the classification under the sound setting the call was sent with, since the `sendMove` closure that handles the reply captured `soundOn`. A failure stores the connection sentinel as CRITICAL with no tone. Both paths keep the history as `sendMove` left it, clear the input, end `loading` and keep the reveal valid. The reveal job is `ShowText` of the stored text: the same text keeps its running reveal, and a new text restarts it from empty. Every other field, the sound setting, language and `listening` included, is unchanged. |
| Session.Locale | src/components/SimulationInterface.jsx:310-315 | Chinese maps to `zh-CN` and Spanish to `es-ES`. English and French both map to `en-US`. Each iff holds in both directions. |
| Session.StatusClassesAgree | src/components/SimulationInterface.jsx:332-335 | The HUD class and the box class are empty together, exactly for IDLE and ACTIVE. CRITICAL and SAFE get different classes. |
| Session.ExecuteStep | src/components/SimulationInterface.jsx:385-393 | While `loading`, or with a blank input, the button does nothing. Otherwise it appends the input as one user turn, sets `loading` and sends exactly one request carrying the extended history. The re-run start effect sends nothing more. |
| Session.TickStep | src/components/SimulationInterface.jsx:288-297 | A tick changes only the reveal job, as one typewriter step. It sends nothing and asks for at most one tone, a typing tone, exactly when the step asks for one. |
| Session.ToggleSoundStep | src/components/SimulationInterface.jsx:271-300 | The sound toggle flips `soundOn` and restarts the reveal of the same text. It re-sends the hidden start request iff the history is empty. Every other field is unchanged, except that `loading` is set when the start action is re-sent. |
| Session.LanguageStep | src/components/SimulationInterface.jsx:271-279 | Choosing a language keeps the history and the reveal. It sends a hidden start request iff the history is empty and the language actually changed. Every other field is unchanged, except `loading` as stated. |
| Session.SpeechStep | src/components/SimulationInterface.jsx:302-328 | Recognition start sets `listening` and beeps when the sound was on at the click that created the recognizer, whatever it is now. A result replaces the input and clears `listening`. An error or end clears `listening`. No capability changes nothing. Every other field of the session is unchanged and nothing is sent. |
| Session.SpokenMoveSent | src/components/SimulationInterface.jsx:225-243 | A recognized transcript, then `Execute`, sends exactly the request that typing the same text would send and adds that text as the user turn. The microphone ends off, and the only tone is the start beep under the click-time sound setting. |
| Session.BeepFollowsClickTimeSound | src/components/SimulationInterface.jsx:302-319 | Toggling the sound between the microphone click and the recognizer's start leaves the start beep as the click-time setting gives it, although the session ends with the sound flipped. |
| Session.ResolveStep | src/components/SimulationInterface.jsx:245-269 | The settling of the call sends nothing, keeps the history and applies `Settle`. |
| Session.Step | src/components/SimulationInterface.jsx:225-393 | Any single event keeps the reveal job valid, keeps every turn of the history and adds at most one, and sends at most one request. |
| Session.Mounted | src/components/SimulationInterface.jsx:274-279 | Mounting sends exactly one hidden start request, in English with an empty history, and leaves the screen loading. |
| Session.Run | src/components/SimulationInterface.jsx:225-393 | Over a sequence of events, the earlier history stays a prefix, it gains at most one turn per event, and at most one request is sent per event. |
| Session.HistoryAppendOnly | src/components/SimulationInterface.jsx:231-236 | No event removes or rewrites a turn. The only event that adds one is EXECUTE with a non-blank input while not loading, and it adds exactly that input. |
| Session.RequestsMatchSession | src/components/SimulationInterface.jsx:238-243 | Every request carries the history, the language and the sound setting the session holds after the event. A request with an empty history is the hidden start action, sent only from an empty history. |
| Session.ActionRoundTrip | src/components/SimulationInterface.jsx:225-272 | EXECUTE then a reply: one request with the extended history, and the user turn is kept. The cleaned reply becomes the text to reveal and its classification the status. The tones are the classification's. The input is cleared and `loading` ends. |
| Session.FailureKeepsUserTurn | src/components/SimulationInterface.jsx:263-269 | EXECUTE then a failure: the history keeps the user turn. The sentinel is shown as CRITICAL with no tone, the input is cleared and `loading` ends. |
| Session.ToneFollowsSendTimeSound | src/components/SimulationInterface.jsx:245-271 | EXECUTE, then the sound toggle while the call is pending, then the reply, from any idle session with non-blank input, the first turn included: the toggle sends nothing, and the reply's tones follow the sound setting at send time, although the session ends with the sound flipped. |
| Session.StartEffectRefiresWhilePending | src/components/SimulationInterface.jsx:271-279 | Right after mounting, with the start request in flight, EXECUTE does nothing. Choosing another language sends a second hidden start request. |
| Session.RevealStaysValid | src/components/SimulationInterface.jsx:282-300 | Over any sequence of events, the displayed text stays a prefix of the text being revealed. |
| Session.TicksDriveJob | src/components/SimulationInterface.jsx:288-297 | Any number of ticks change only the reveal job, send nothing, and ask only for typing tones, one per tone of the job's run. |
| Session.NewReplySupersedesReveal | src/components/SimulationInterface.jsx:282-300 | A new reply arriving mid-reveal restarts the display from empty. After one tick per unit of the new text, plus one, exactly the new text is shown and the interval is cleared. |
| Session.RestartedRevealCompletes | src/components/SimulationInterface.jsx:282-300 | A reveal that has just started shows its whole text after one tick per unit plus one, with the interval cleared. |
| Reply.TokenLen | src/components/SimulationInterface.jsx:246 | The token matched at the start of the text ends in a colon and lies within the text. None matches iff no alternative starts the text, letter case ignored. |
| Reply.StripRoleTokens | src/components/SimulationInterface.jsx:246 | Removing role tokens never lengthens the text, and text that gets shorter held a colon. What is removed is stated by `Reply.StripWithoutColon`, `Reply.LeadingTokenRemoved` and `Reply.TokenAfterPlainTextRemoved`. |
| Reply.StripWithoutColon | src/components/SimulationInterface.jsx:246 | Text without a colon comes back unchanged. |
| Reply.LeadingTokenRemoved | src/components/SimulationInterface.jsx:246 | A role token at the start of the text, in any letter case, is removed. |
| Reply.TokenAfterPlainTextRemoved | src/components/SimulationInterface.jsx:246 | For any colon-free text `x`, any letter case `t` of a role token and any rest `y`, the pass returns `x` followed by the pass over `y`: the text before a token is kept, the token is removed, and no token is matched across the boundary. |
| Reply.TokenLenLower | src/components/SimulationInterface.jsx:246 | Token matching ignores letter case: lower-casing the text does not change what is matched. |
| Reply.StripCommutesWithLower | src/components/SimulationInterface.jsx:246 | Removing tokens and lower-casing commute. |
| Reply.StripIsSinglePass | src/components/SimulationInterface.jsx:246 | The removal is a single pass. `AAI:I:` becomes `AI:`, which still starts with a token. |
| Reply.PrefixedReplyCleaned | src/components/SimulationInterface.jsx:245-247 | A reply made of a role token, one whitespace unit and a colon-free text with no whitespace at its ends cleans to that text. |
| Reply.Clean | src/components/SimulationInterface.jsx:245-247 | The stored text is the token-free reply with exactly the ECMAScript whitespace removed at both ends, and is never longer than the raw reply. |
| Reply.TrainerReplyExample | src/components/SimulationInterface.jsx:245-259 | `Trainer: You failed the check ❌` cleans to `You failed the check ❌`, which is CRITICAL. |
| Reply.FailedCheckIsCritical | src/components/SimulationInterface.jsx:249-259 | `You failed the check ❌` is classified CRITICAL. |
| Reply.Classify | src/components/SimulationInterface.jsx:249-259 | SAFE iff the success test fires. CRITICAL iff the failure test fires and the success test does not. ACTIVE iff neither fires. The error tone sounds iff sound is on and the failure test fires, and likewise the success tone for the success test. There is one tone per test that fires while sound is on. Both come in that order, and no typing tone sounds. |
| Reply.IncorrectReplyIsSafe | src/components/SimulationInterface.jsx:249-259 | `Incorrect. You fail.` matches the failure test, yet is SAFE. |
| JsText.JsTrim | src/components/SimulationInterface.jsx:247 | `trim` removes exactly the ECMAScript whitespace and line terminators at both ends, and nothing inside. |
| JsText.BlankIff | src/components/SimulationInterface.jsx:227 | An action is rejected as blank iff every unit is whitespace, the empty action included. |
| JsText.LowerStr | src/components/SimulationInterface.jsx:251 | Lower-casing keeps the length and maps each unit in place. |
| Reveal.Start | src/components/SimulationInterface.jsx:283-288 | A new job starts valid and running, with an empty display. |
| Reveal.Tick | src/components/SimulationInterface.jsx:288-297 | A tick keeps the job valid and never shrinks the display. It appends exactly the next unit of the full text, or, once all are shown, clears the interval. It asks for a typing tone iff sound is on and the counter is a multiple of 4. |
| Reveal.RevealMonotone | src/components/SimulationInterface.jsx:288-297 | Within one job, any number of ticks keep the job valid and keep the earlier display as a prefix. |
| Reveal.RevealCompletes | src/components/SimulationInterface.jsx:288-297 | A running job with k units left shows the whole text after k+1 ticks, with its interval cleared. It has asked for one typing tone per multiple of 4 passed. |
| Reveal.RevealFromStart | src/components/SimulationInterface.jsx:282-300 | A text of n units is fully shown after n+1 ticks, with ⌈n/4⌉ typing tones when sound is on and none when it is off. |
| Reveal.MultiplesOf4FromZero | src/components/SimulationInterface.jsx:291 | Counting the counters that are multiples of 4 below n gives ⌈n/4⌉. |
| Reveal.StoppedJobIsInert | src/components/SimulationInterface.jsx:294-296 | A cleared interval never fires again. |
| Reveal.DeferredTick | src/components/SimulationInterface.jsx:288-297 | With the updater run after `i++`, a running tick still advances the counter by one and only appends, but what it appends is the unit after the counter. |
| Reveal.DeferredRevealGarbles | src/components/SimulationInterface.jsx:288-297 | With the updater run after `i++`, revealing `ab` first shows `b`, which is not a prefix of `ab`, and ends showing `bundefined`. |
| Cues.CueEnd | src/components/SimulationInterface.jsx:182 | A match of the cue pattern spans a complete cue: `[Image of `, then no `]` and no line terminator, then `]`. |
| Cues.Split | src/components/SimulationInterface.jsx:182 | The split gives an odd number of parts that concatenate back to the text. Even parts hold no cue and odd parts are complete cues. Each cue is the leftmost match at or after the end of the previous one: no match of the pattern starts inside a literal part, measured on the whole text. |
| Cues.SplitFromLeftmost | src/components/SimulationInterface.jsx:182 | The scan from any point past which no match has started makes the leftmost split of the rest of the text. |
| Cues.LeftmostSplitUnique | src/components/SimulationInterface.jsx:182 | For any pattern, two splits that both take each match leftmost are equal. |
| Cues.SplitIsTheLeftmostSplit | src/components/SimulationInterface.jsx:182 | Any split that takes each cue leftmost is the one `Cues.Split` returns. |
| Cues.CueAloneSplit | src/components/SimulationInterface.jsx:182 | A text that is exactly one cue splits into an empty part, the cue and an empty part. |
| Cues.NestedOpenIsOneCue | src/components/SimulationInterface.jsx:182 | `[Image of [Image of b]` is one cue: the lazy match starts at the first `[Image of ` and runs to the only `]`. |
| Cues.SplitFromParts | src/components/SimulationInterface.jsx:182 | From any point past which no match has started, the remaining parts have the shape of a correct split. |
| Cues.NoCloseNoCue | src/components/SimulationInterface.jsx:182 | Text without `]` is a single literal part. |
| Cues.Query | src/components/SimulationInterface.jsx:185 | A cue's query holds no `]` and no line terminator. |
| Cues.CueEndOfCue | src/components/SimulationInterface.jsx:185 | The pattern matches a complete cue part at its start, spanning all of it. |
| Cues.SplitFrom | src/components/SimulationInterface.jsx:182 | From any point on, the split emits an odd number of parts: literal text first and last, with a cue between each two. |
| Cues.MatchQuery | src/components/SimulationInterface.jsx:185 | There is no capture iff no match starts anywhere from the search point on. A capture holds no `]` and no line terminator. |
| Cues.RenderPart | src/components/SimulationInterface.jsx:184-204 | A part without a cue renders as formatted text of itself. A complete cue renders as the diagram of its query. Formatted text is always the part itself. |
| Cues.Render | src/components/SimulationInterface.jsx:180-205 | The rendering has one block per part. Even blocks are the literal parts as text. Odd blocks are diagrams whose query holds no `]` and no line terminator. |
| Cues.DiagramsFollowReveal | src/components/SimulationInterface.jsx:180-205 | The cues found in any prefix of the text are a prefix of the cues of the whole text. A diagram appears only once its `]` is shown, and once shown it stays. |
| Cues.CuesOf | src/components/SimulationInterface.jsx:182-191 | The cues of a split are its odd-indexed parts in order, half the parts rounded down. |
| Diagram.Mount | src/components/SimulationInterface.jsx:95-96 | A new diagram is loading and has no image. |
| Diagram.Step | src/components/SimulationInterface.jsx:98-123 | Unmount sets the flag and changes nothing else. Nothing changes after unmount or for a superseded fetch. `imgSrc` changes only when a live fetch returns a truthy image, and then to that image. A live fetch always ends `loading`. A new query starts a new live fetch and retires the old one. |
| Diagram.Run | src/components/SimulationInterface.jsx:98-123 | Over a sequence of events the effect-run number never goes back, grows by at most one per event, and grows only when the query changed. An unmounted diagram stays unmounted. |
| Diagram.FrozenAfterUnmount | src/components/SimulationInterface.jsx:99-122 | After unmount, no sequence of events changes the state. |
| Diagram.ImageComesFromLiveFetch | src/components/SimulationInterface.jsx:108-110 | Over any sequence of events, the image is null or a truthy image. |
| Diagram.OldImageSurvivesFailedRefetch | src/components/SimulationInterface.jsx:98-123 | A new query whose fetch fails keeps showing the previous query's image. |
| Backend.Topic | backend/main.py:152-154 | After the `.pdf` occurrences are removed, each underscore becomes a space in place. Every other character and the length are kept, so no underscore is left. |
| Backend.Upload | backend/main.py:147-160 | Text shorter than 20 characters is replaced by the warning, and longer text is stored as is. The history is reset, and the topic comes from the file name. The reported count is the stored length, which is at least 20. |
| Backend.UploadFile | backend/main.py:135-161 | A PDF whose text layer has at least 50 characters is stored as exactly that layer. A non-PDF on which OCR raises is stored as the warning. The history is reset and the topic is set. |
| Backend.VisualConcept | backend/main.py:114-129 | The concept is the stripped completion for the last 500 characters of the reply, or `Technical Schematic` when the call raises. |
| Backend.PromptText | backend/main.py:116-122 | The visual prompt is the fixed header, the reply's tail and a newline. The scenario prompt has the manual right after its fixed header and the log right before its final newline. |
| Backend.VisualPromptInjective | backend/main.py:116-122 | Two visual prompts have the same text iff their tails are equal. |
| Backend.CueHasTag | backend/main.py:205 | Appending a cue always puts `[Image of` in the reply. |
| Backend.Cue | backend/main.py:205 | The cue is a blank line, `[Image of ` at offset 2, the visual at offset 12, then `]` and a newline, 14 characters longer than the visual. |
| Backend.Augment | backend/main.py:199-205 | The reply is augmented iff it lacks `[Image of`, the action lacks `START SIMULATION`, and the concept is non-empty. An augmented reply is the reply plus exactly one cue for the concept. Afterwards the reply holds a tag whenever it is augmented or already had one. |
| Backend.AugmentIdempotent | backend/main.py:199-205 | Augmenting an augmented reply changes nothing. |
| Backend.Simulate | backend/main.py:164-211 | Without a manual of at least 50 characters, the fixed error is returned and nothing changes. Otherwise the user entry is logged before the call. A completed call returns and logs the augmented reply. A raising call returns `System Error: ` and its message, and logs nothing more. Manual and topic never change. |
| Backend.SimPrompt | backend/main.py:171-189 | The prompt carries the language, the first min(n, 4000) characters of the manual, and a log that ends with the newest entry. With four entries or fewer, the log is all of them joined by newlines. |
| Backend.HistoryAppendOnly | backend/main.py:171-211 | A call adds nothing, or the user entry, or the user entry and then the AI entry holding exactly the reply returned. |
| Backend.GuardFollowsWindow | backend/main.py:168-178 | Two manuals that agree on their first 4000 characters pass the guard together. |
| Backend.ResponseDependsOnWindow | backend/main.py:171-189 | The response depends on the context only through the first 4000 characters of the manual and the last four log entries. |
| Backend.VisualDependsOnTail | backend/main.py:114-122 | The concept depends on the reply only through its last 500 characters. |
| Backend.UnreadableUploadStillSimulates | backend/main.py:147-171 | The 55-character warning passes the 50-character guard, so `/simulate` runs against it and logs. |
| Backend.ShortManualAcceptedThenRefused | backend/main.py:147-169 | Text of 20 to 49 characters is accepted, with its length reported, yet `/simulate` answers that no manual is loaded and changes nothing. |
| Backend.UploadResetsHistory | backend/main.py:150-171 | After an upload, the first log entry is the next action. |
| Backend.TopicOfPlainName | backend/main.py:152-154 | A name without `.pdf` and without `_` is its own topic. |
| Backend.GuideIsPdf | backend/main.py:91 | `Guide.PDF` is read as a PDF, since the extension test ignores case. |
| Backend.GuideTopic | backend/main.py:152-154 | The topic of `Guide.PDF` keeps `.PDF`, since only the exact lower-case `.pdf` is removed. |
| Backend.UpperCaseExtensionKept | backend/main.py:91-154 | Both of the above at once. |
| Extraction.PagesRead | backend/main.py:95-101 | At most ten pages are read, and never more than exist. A raise stops the reading at its page. |
| Extraction.IsPdf | backend/main.py:91 | A name is a PDF iff its last four characters lower-case to `.pdf`. |
| Extraction.PdfSuffixExamples | backend/main.py:91 | `Notes.PDF` and `a.Pdf` are PDFs. `notes.pdf.txt` and `pdf` are not. |
| Extraction.ReadPagesSpec | backend/main.py:96-99 | The text layer is each read page's text followed by a newline, in order. Pages with no or empty text add nothing. |
| Extraction.ReadPagesPrefix | backend/main.py:96-99 | Reading n pages looks only at the first n. |
| Extraction.ReadPages | backend/main.py:96-99 | The text layer read so far is empty or ends with a newline. |
| Extraction.PagesBeyondLimitIgnored | backend/main.py:96 | Two PDFs that agree on their first ten pages, and raise at the same place, give the same text layer. |
| Extraction.OcrLines | backend/main.py:105-107 | OCR contributes iff it returned, its result is non-empty and the first page of the result is non-empty. What it contributes is exactly that first page. |
| Extraction.ExtractText | backend/main.py:89-111 | The text starts with the PDF layer when the name ends in `.pdf` in any case. A layer of 50 characters or more is the whole text. Without OCR lines, the text is the layer, or empty for a non-PDF. |
| Extraction.OcrIgnoredForLongText | backend/main.py:103-109 | Once the layer reaches 50 characters, the OCR result is ignored. |
| Extraction.OcrAppendedForShortText | backend/main.py:103-109 | Below 50 characters, the OCR lines joined by newlines are appended to the layer, and a raising or empty OCR adds nothing. |
| Extraction.NonPdfIsOcrOnly | backend/main.py:91-107 | A file whose name does not end in `.pdf` is read by OCR alone. |
| PyText.Strip | backend/main.py:127 | `strip` removes exactly the Python whitespace at both ends, and nothing inside. |
| PyText.StripEmptyIff | backend/main.py:204 | A stripped concept is falsy iff the completion was all whitespace. |
| PyText.Lower | backend/main.py:91 | Lower-casing keeps the length and maps each character in place. |
| PyText.Take | backend/main.py:178 | `manual[:4000]` is the prefix of length min(n, 4000). |
| PyText.TakeLast | backend/main.py:172 | `history[-4:]` is the suffix of length min(n, 4). |
| PyText.Join | backend/main.py:172 | A join begins with the first item and ends with the last. It is at least one separator per gap long. No items join to empty text, and one item joins to itself. |
| PyText.ReplaceAbsent | backend/main.py:153 | `replace` of an absent pattern is the identity. |
| PyText.Replace | backend/main.py:153 | With a non-empty pattern, equal-length replacement keeps the length, a shorter one never lengthens and a longer one never shortens. An empty pattern inserts the replacement at each of the n+1 positions. |
| PyText.ReplaceChar | backend/main.py:153 | Replacing `_` by a space maps the name character by character, keeping its length. |
| PyText.ReplaceCharGone | backend/main.py:248 | After replacing a character by text without it, the character is gone. |
| PyText.SpaceEscapeRoundTrip | backend/main.py:248 | Decoding `%20` undoes the space escape of text without `%`. |
| ImageEndpoint.FullPrompt | backend/main.py:219-223 | The image prompt starts with the fixed head and contains both the requested object and the topic. |
| ImageEndpoint.Escape | backend/main.py:248 | The escaped prompt holds no space. |
| ImageEndpoint.GenerateImage | backend/main.py:227-255 | The `image` field is a PNG data URL of the generated image. When the service raises, it is the fallback link with the escaped prompt between the fixed head and query. |
| ImageEndpoint.FallbackHasNoSpace | backend/main.py:248-252 | The fallback link holds no space, whatever the prompt and topic. |
| ImageEndpoint.FallbackCarriesPrompt | backend/main.py:248-252 | Between the link's fixed head and query lies the prompt, and decoding `%20` there restores it when neither object nor topic holds `%`. |
| ImageEndpoint.TopicReachesPrompt | backend/main.py:217-221 | The topic set by the last upload appears in every image prompt. |

## Findings

| source | as written | input that shows it | evidently intended | confidence | as-written member | corrected member |
|---|---|---|---|---|---|---|
| src/components/SimulationInterface.jsx:288-297 | The interval callback queues the updater `p => p + fullScenarioText[i]` and then runs `i++`. The updater reads the shared `i` only when React runs it. When React runs it after the callback returns, it reads the incremented `i`. | Revealing `ab`: the first tick shows `b`, and the display ends as `bundefined`. | Each tick appends the unit at the counter's value when the update is queued, so the display is always a prefix of the text. | not executed; whether the updater runs before `i++` depends on React's scheduling | Reveal.DeferredTick, Reveal.DeferredRevealGarbles | Reveal.Tick, Reveal.RevealFromStart |

## Left out

- Audio: `playTone` and `getAudioContext` produce oscillators, gain ramps and a shared audio context. Only the requested tone is modelled, as a `Tones.Tone` event.
- React scheduling: effect timing, the 10 ms interval period, `scrollIntoView`, JSX layout, styles, icons and Markdown rendering. The reveal is a sequence of discrete ticks. A rendered part is a `Cues.Block`.
- Speech: the capability check is the `Unsupported` event, and the `alert` is browser I/O. The recognizer object and `recognition.start()` are not modelled. What is modelled is the locale, the `listening` flag, the start beep under the click-time sound setting, and the transcript replacing the input.
- `src/App.js` and `src/api.js`: the upload screen depends on a timer, an alert and the upload call, and the wrappers hold no logic. Neither is part of this model.
- HTTP transport: each call is an outcome parameter (`Session.Outcome`, `Diagram.Fetch`). A malformed reply body, such as a missing `response` field, raises inside the `try` and is the `Raised` outcome.
- Foreign services: pdfplumber, PaddleOCR, erniebot and the Hugging Face client are parameters. The language model is a deterministic function of the prompt. The same prompt sent twice gets the same answer within one model value, and nondeterminism is a choice of model.
- Image encoding: PNG saving and base64 encoding are not modelled. `ImageEndpoint.Generation` carries the payload already encoded.
- Server plumbing: environment loading, token checks, CORS, the temporary file, and `print` logging are I/O.
- History on the wire: the browser's `history` field is not part of the server model, because the server's request type declares no such field.
- Extraction.ExtractText: an OCR result line is reduced to its recognised text (`line[1][0]`). A line of another shape raises inside the `try`, which is the `OcrRaised` outcome.
- JsText.LowerStr: models `toLowerCase` on ASCII letters only. The patterns tested (`fail`, `correct`, the role tokens) are ASCII, but full Unicode case mapping could change other units, and a few non-ASCII characters lower-case to an ASCII letter.
- PyText.Lower: models `str.lower` on ASCII letters only, for the same reason. This matters only for `.pdf`.
- Backend.Simulate: the error text `str(e)` is the `message` of the `Raised` completion, and its content is not modelled.
- Reveal.Tick: models the updater reading `i` before the `i++` of the same tick, which is the intended behaviour of the Findings row. It does not promise what the screen shows when React runs the updater later (`Reveal.DeferredTick`).
- Reveal.RevealMonotone: rests on `Reveal.Tick`, so it assumes the updater reads `i` before the increment.
- Reveal.RevealCompletes: rests on `Reveal.Tick`, so it assumes the updater reads `i` before the increment.
- Reveal.RevealFromStart: rests on `Reveal.Tick`, so it assumes the updater reads `i` before the increment.
- Session.Step: its reveal-validity clause rests on `Reveal.Tick`, so it assumes the updater reads `i` before the increment.
- Session.RevealStaysValid: rests on `Reveal.Tick`, so it assumes the updater reads `i` before the increment.
- Session.NewReplySupersedesReveal: rests on `Reveal.Tick`, so it assumes the updater reads `i` before the increment.
- Session.RestartedRevealCompletes: rests on `Reveal.Tick`, so it assumes the updater reads `i` before the increment.
- Concurrency: both tiers run one event at a time. Several browsers sharing the server's single context interleave whole requests, which a sequence of `Backend.Simulate` calls covers.

=== FILE: backend.dfy ===
/** The server's session bookkeeping (backend/main.py, lines 63-211): the
    single in-memory context, the `/upload` and `/simulate` endpoints, and the
    image tag appended to replies. The language model is a parameter: a
    function from the prompt to what the completion call does. */
module Backend {
  import opened Common
  import opened PyText
  import Extraction

  /** `global_context`: the manual text, the server-side chat log and the
      topic used by the image endpoint. */
  datatype Context = Context(manual: string, history: seq<string>, topic: string)

  /** Lines 67-71. */
  const INITIAL: Context := Context("", [], "General Science")

  /** The two prompts the server sends, by their variable parts; their exact
      text is `PromptText`. */
  datatype Prompt =
    | ScenarioPrompt(manual: string, language: string, log: string)
    | VisualPrompt(tail: string)

  /** The fixed pieces of the scenario prompt, around the manual, the
      language and the log. */
  const MANUAL_HEAD: string := "\nROLE: Expert Simulator.\n\nMANUAL:\n"
  const LANGUAGE_HEAD: string := "\n\nINSTRUCTIONS:\n- Language: "
  const HISTORY_HEAD: string :=
    "\n- Create scenario + 3 options (A, B, C)\n- MUST include image tag if physical concept exists\n\n[Image of Object Name]\n\nCHAT HISTORY:\n"
  /** The fixed text of the visual prompt before the reply's tail. */
  const TEXT_HEAD: string :=
    "\nExtract the single most important physical object or setting\nfor a technical diagram. Return ONLY the noun.\n\nTEXT:\n"

  /** The text of the f-strings of lines 116-122 and 174-189: the manual
      right after the fixed role header, the log right before the closing
      newline, and the reply's tail between the visual header and that
      newline. */
  function PromptText(p: Prompt): (r: string)
    ensures p.ScenarioPrompt? ==>
      && |r| == |MANUAL_HEAD| + |p.manual| + |LANGUAGE_HEAD| + |p.language| + |HISTORY_HEAD| + |p.log| + 1
      && r[..|MANUAL_HEAD|] == MANUAL_HEAD
      && r[|MANUAL_HEAD|..|MANUAL_HEAD| + |p.manual|] == p.manual
      && r[|r| - 1 - |p.log|..|r| - 1] == p.log
    ensures p.VisualPrompt? ==>
      && |r| == |TEXT_HEAD| + |p.tail| + 1
      && r[|TEXT_HEAD|..|r| - 1] == p.tail
    ensures r[|r| - 1] == '\n'
  {
    match p
    case ScenarioPrompt(manual, language, log) =>
      MANUAL_HEAD + manual + LANGUAGE_HEAD + language + HISTORY_HEAD + log + "\n"
    case VisualPrompt(tail) =>
      TEXT_HEAD + tail + "\n"
  }

  /** Distinct reply tails give distinct visual prompts. */
  lemma VisualPromptInjective(a: string, b: string)
    ensures PromptText(VisualPrompt(a)) == PromptText(VisualPrompt(b)) <==> a == b
  {
    if PromptText(VisualPrompt(a)) == PromptText(VisualPrompt(b)) {
      assert a == PromptText(VisualPrompt(a))[|TEXT_HEAD|..|TEXT_HEAD| + |a|];
    }
  }

  /** What one `erniebot.ChatCompletion.create(...).get_result()` does for a
      prompt: return the completion, or raise with a message. */
  datatype Completion = Completed(text: string) | Raised(message: string)

  /** The language model, as a function of the prompt's parts. A model of the
      prompt's text alone is the special case `p => f(PromptText(p))`. */
  type Llm = Prompt -> Completion

  /** Extracted text shorter than this is replaced by the warning. */
  const MIN_UPLOAD: nat := 20
  /** A manual shorter than this is treated as not loaded. */
  const MIN_MANUAL: nat := 50
  const WARNING: string := "WARNING: The uploaded document was empty or unreadable."
  const NO_MANUAL: string := "SYSTEM ERROR: No manual loaded."
  const IMAGE_TAG: string := "[Image of"
  const START_ACTION: string := "START SIMULATION"
  const FALLBACK_VISUAL: string := "Technical Schematic"

  /** The result of `/upload`: the new context and `char_count`. */
  datatype Uploaded = Uploaded(context: Context, charCount: nat)

  /** `file.filename.replace(".pdf", "").replace("_", " ")`: once the
      `.pdf` occurrences are gone, each underscore becomes a space in place
      and every other character is kept. */
  function Topic(filename: string): (t: string)
    ensures var base := Replace(filename, ".pdf", "");
      && |t| == |base|
      && forall k :: 0 <= k < |base| ==> t[k] == if base[k] == '_' then ' ' else base[k]
    ensures '_' !in t
  {
    var base := Replace(filename, ".pdf", "");
    ReplaceChar(base, '_', ' ');
    assert [' '] == " " && ['_'] == "_";
    Replace(base, "_", " ")
  }

  /** Lines 135-161, after extraction: too little text is replaced by the
      warning, the server-side history is reset, the topic is derived from
      the file name, and the stored length is reported. */
  function Upload(filename: string, extracted: string): (r: Uploaded)
    ensures r.context.history == []
    ensures r.context.topic == Topic(filename)
    ensures r.charCount == |r.context.manual| >= MIN_UPLOAD
    ensures |extracted| >= MIN_UPLOAD ==> r.context.manual == extracted
    ensures |extracted| < MIN_UPLOAD ==> r.context.manual == WARNING
  {
    var text := if |extracted| < MIN_UPLOAD then WARNING else extracted;
    Uploaded(Context(text, [], Topic(filename)), |text|)
  }

  /** The whole `/upload` request: extraction from what the PDF reader and
      the OCR engine return, then `Upload`. A PDF whose first pages carry a
      long enough text layer is stored as exactly that text, whatever the
      OCR engine would say; a file nothing could be read from is stored as
      the warning. */
  function UploadFile(filename: string, pdf: Extraction.PdfSource, ocr: Extraction.OcrOutcome): (r: Uploaded)
    ensures r.context.history == [] && r.context.topic == Topic(filename)
    ensures Extraction.IsPdf(filename) && |Extraction.PdfText(pdf)| >= MIN_MANUAL ==>
      r.context.manual == Extraction.PdfText(pdf)
    ensures !Extraction.IsPdf(filename) && ocr.OcrRaised? ==> r.context.manual == WARNING
  {
    Upload(filename, Extraction.ExtractText(filename, pdf, ocr))
  }

  /** The prompt of lines 116-122, over the last 500 characters of the reply. */
  function VisualPromptFor(scenario: string): Prompt {
    VisualPrompt(TakeLast(scenario, 500))
  }

  /** `extract_visual_concept`: the stripped completion, or the fallback
      noun when the call raises. */
  function VisualConcept(scenario: string, llm: Llm): (v: string)
    ensures llm(VisualPromptFor(scenario)).Raised? ==> v == FALLBACK_VISUAL
    ensures llm(VisualPromptFor(scenario)).Completed? ==> IsTrimOf(v, llm(VisualPromptFor(scenario)).text, IsPyWhitespace)
  {
    match llm(VisualPromptFor(scenario))
    case Completed(text) => Strip(text)
    case Raised(_) => FALLBACK_VISUAL
  }

  /** The tag appended for a visual: a blank line, then `[Image of `, the
      visual and `]` on a line of their own. */
  function Cue(visual: string): (c: string)
    ensures |c| == |visual| + 14
    ensures OccursAt(c, IMAGE_TAG, 2) && c[11] == ' '
    ensures c[12..12 + |visual|] == visual && c[12 + |visual|..] == "]\n"
  {
    "\n\n[Image of " + visual + "]\n"
  }

  lemma CueHasTag(reply: string, visual: string)
    ensures Contains(reply + Cue(visual), IMAGE_TAG)
  {
    assert OccursAt(reply + Cue(visual), IMAGE_TAG, |reply| + 2);
  }

  /** Lines 199-205: a reply without any image tag, to an action that is not
      the start action, gets a tag for the visual concept when that concept
      is non-empty. */
  function Augment(reply: string, action: string, llm: Llm): (r: string)
    ensures Contains(reply, IMAGE_TAG) || Contains(action, START_ACTION) ==> r == reply
    ensures r == reply || r == reply + Cue(VisualConcept(reply, llm))
    ensures r != reply <==>
      !Contains(reply, IMAGE_TAG) && !Contains(action, START_ACTION) && VisualConcept(reply, llm) != []
    ensures Contains(reply, IMAGE_TAG) || r != reply ==> Contains(r, IMAGE_TAG)
  {
    if !Contains(reply, IMAGE_TAG) && !Contains(action, START_ACTION) then
      var visual := VisualConcept(reply, llm);
      if visual != [] then
        CueHasTag(reply, visual);
        reply + Cue(visual)
      else reply
    else reply
  }

  /** Augmenting twice is augmenting once: the first tag stops the second. */
  lemma AugmentIdempotent(reply: string, action: string, llm: Llm)
    ensures Augment(Augment(reply, action, llm), action, llm) == Augment(reply, action, llm)
  {
  }

  /** The prompt of lines 174-189: the first 4000 characters of the manual,
      the language, and the log of the last four history entries. */
  function SimPrompt(manual: string, language: string, history: seq<string>): (p: Prompt)
    ensures p.ScenarioPrompt? && p.language == language
    ensures IsPrefix(p.manual, manual) && |p.manual| == if |manual| < 4000 then |manual| else 4000
    ensures |history| <= 4 ==> p.log == Join("\n", history)
    ensures |history| > 0 ==> var last := history[|history| - 1];
      |last| <= |p.log| && p.log[|p.log| - |last|..] == last
  {
    ScenarioPrompt(Take(manual, 4000), language, Join("\n", TakeLast(history, 4)))
  }

  /** The result of `/simulate`: the new context and the `response` field. */
  datatype Simulated = Simulated(context: Context, response: string)

  function UserEntry(action: string): string {
    "User: " + action
  }

  function AiEntry(reply: string): string {
    "AI: " + reply
  }

  /** Lines 164-211. Without a manual of at least fifty characters nothing
      changes and the fixed error is returned. Otherwise the action is logged
      before the call; a completed call logs and returns the augmented
      reply, a raising one returns the error text and logs nothing more. */
  function Simulate(c: Context, action: string, language: string, llm: Llm): (r: Simulated)
    ensures |c.manual| < MIN_MANUAL ==> r == Simulated(c, NO_MANUAL)
    ensures r.context.manual == c.manual && r.context.topic == c.topic
    ensures |c.manual| >= MIN_MANUAL ==>
      var h := c.history + [UserEntry(action)];
      match llm(SimPrompt(c.manual, language, h))
      case Completed(reply) =>
        && r.response == Augment(reply, action, llm)
        && r.context.history == h + [AiEntry(r.response)]
      case Raised(message) =>
        && r.response == "System Error: " + message
        && r.context.history == h
  {
    if |c.manual| == 0 || |c.manual| < MIN_MANUAL then Simulated(c, NO_MANUAL)
    else
      var h := c.history + [UserEntry(action)];
      match llm(SimPrompt(c.manual, language, h))
      case Completed(reply) =>
        var augmented := Augment(reply, action, llm);
        Simulated(c.(history := h + [AiEntry(augmented)]), augmented)
      case Raised(message) =>
        Simulated(c.(history := h), "System Error: " + message)
  }

  /** The server-side history only grows: each call adds nothing, the user
      entry, or the user entry and the AI entry holding exactly the reply
      returned. */
  lemma HistoryAppendOnly(c: Context, action: string, language: string, llm: Llm)
    ensures var r := Simulate(c, action, language, llm);
      || r.context.history == c.history
      || r.context.history == c.history + [UserEntry(action)]
      || r.context.history == c.history + [UserEntry(action), AiEntry(r.response)]
  {
    var r := Simulate(c, action, language, llm);
    if |c.manual| >= MIN_MANUAL {
      var h := c.history + [UserEntry(action)];
      if llm(SimPrompt(c.manual, language, h)).Completed? {
        assert h + [AiEntry(r.response)] == c.history + [UserEntry(action), AiEntry(r.response)];
      }
    }
  }

  /** The two manuals pass or fail the fifty-character guard together when
      their first 4000 characters agree. */
  lemma GuardFollowsWindow(m1: string, m2: string)
    requires Take(m1, 4000) == Take(m2, 4000)
    ensures |m1| < MIN_MANUAL <==> |m2| < MIN_MANUAL
  {
    if |m1| < 4000 || |m2| < 4000 {
      assert |m1| == |m2|;
    }
  }

  /** The reply depends on the context only through the first 4000
      characters of the manual and the last four entries of the history
      once the action is logged: two contexts that agree on these get the
      same response. */
  lemma ResponseDependsOnWindow(c1: Context, c2: Context, action: string, language: string, llm: Llm)
    requires Take(c1.manual, 4000) == Take(c2.manual, 4000)
    requires TakeLast(c1.history + [UserEntry(action)], 4) == TakeLast(c2.history + [UserEntry(action)], 4)
    ensures Simulate(c1, action, language, llm).response == Simulate(c2, action, language, llm).response
  {
    GuardFollowsWindow(c1.manual, c2.manual);
    if |c1.manual| >= MIN_MANUAL {
      assert SimPrompt(c1.manual, language, c1.history + [UserEntry(action)])
          == SimPrompt(c2.manual, language, c2.history + [UserEntry(action)]);
    }
  }

  /** The visual concept depends only on the last 500 characters of the reply. */
  lemma VisualDependsOnTail(s1: string, s2: string, llm: Llm)
    requires TakeLast(s1, 500) == TakeLast(s2, 500)
    ensures VisualConcept(s1, llm) == VisualConcept(s2, llm)
  {
    assert VisualPromptFor(s1) == VisualPromptFor(s2);
  }

  /** The warning stored for an unreadable upload is itself long enough to
      pass the manual guard, so `/simulate` then runs against the warning. */
  lemma UnreadableUploadStillSimulates(filename: string, extracted: string, action: string, language: string, llm: Llm)
    requires |extracted| < MIN_UPLOAD
    ensures var c := Upload(filename, extracted).context;
      |c.manual| == 55 && Simulate(c, action, language, llm).context.history != []
  {
    assert |WARNING| == 55;
  }

  /** Extracted text of twenty to forty-nine characters is stored and
      reported as a successful upload, yet `/simulate` still answers that no
      manual is loaded. */
  lemma ShortManualAcceptedThenRefused(filename: string, extracted: string, action: string, language: string, llm: Llm)
    requires MIN_UPLOAD <= |extracted| < MIN_MANUAL
    ensures var u := Upload(filename, extracted);
      && u.charCount == |extracted|
      && Simulate(u.context, action, language, llm) == Simulated(u.context, NO_MANUAL)
  {
  }

  /** A new upload forgets the whole conversation. */
  lemma UploadResetsHistory(c: Context, filename: string, extracted: string, action: string, language: string, llm: Llm)
    requires |extracted| >= MIN_MANUAL
    ensures var c1 := Upload(filename, extracted).context;
      Simulate(c1, action, language, llm).context.history[0] == UserEntry(action)
  {
  }

  /** The topic keeps a name without `.pdf` and without `_` as it is, and
      only the exact lower-case `.pdf` is removed: `Guide.PDF` keeps its
      extension in the topic although it is read as a PDF. */
  lemma TopicOfPlainName(filename: string)
    requires !Contains(filename, ".pdf") && '_' !in filename
    ensures Topic(filename) == filename
  {
    ReplaceAbsent(filename, ".pdf", "");
    assert !Contains(filename, "_") by {
      if Contains(filename, "_") {
        ContainsElement(filename, "_", 0);
      }
    }
    ReplaceAbsent(filename, "_", " ");
  }

  lemma UpperCaseExtensionKept()
    ensures Extraction.IsPdf("Guide.PDF") && Topic("Guide.PDF") == "Guide.PDF"
  {
    GuideIsPdf();
    GuideTopic();
  }

  lemma GuideIsPdf()
    ensures Extraction.IsPdf("Guide.PDF")
  {
    assert "Guide.PDF"[5..] == ".PDF";
    assert Lower("Guide.PDF")[5..] == ".pdf";
  }

  lemma GuideTopic()
    ensures Topic("Guide.PDF") == "Guide.PDF"
  {
    assert !Contains("Guide.PDF", ".pdf") by {
      if Contains("Guide.PDF", ".pdf") {
        ContainsElement("Guide.PDF", ".pdf", 1);
      }
    }
    TopicOfPlainName("Guide.PDF");
  }
}

=== FILE: common.dfy ===
/** Vocabulary shared by the browser tier and the server tier: optional values,
    substring search and whitespace trimming over sequences of any element type. */
module Common {

  /** A value that may be absent (JavaScript `null`/`undefined`, Python `None`). */
  datatype Option<+T> = None | Some(value: T)

  /** `p` occurs in `s` starting at index `k`. */
  predicate OccursAt<T(==)>(s: seq<T>, p: seq<T>, k: nat) {
    k + |p| <= |s| && s[k..k + |p|] == p
  }

  /** Substring search: JavaScript `s.includes(p)`, Python `p in s`. */
  predicate Contains<T(==)>(s: seq<T>, p: seq<T>) {
    exists k: nat :: k <= |s| && OccursAt(s, p, k)
  }

  /** Every element of a pattern found in `s` is an element of `s`. */
  lemma ContainsElement<T>(s: seq<T>, p: seq<T>, m: nat)
    requires Contains(s, p) && m < |p|
    ensures p[m] in s
  {
    var k: nat :| k <= |s| && OccursAt(s, p, k);
    assert s[k + m] == p[m];
  }

  /** `a` is a prefix of `b`. */
  predicate IsPrefix<T(==)>(a: seq<T>, b: seq<T>) {
    |a| <= |b| && b[..|a|] == a
  }

  /** The concatenation of a sequence of sequences. */
  function Concat<T>(parts: seq<seq<T>>): (r: seq<T>)
    ensures parts == [] ==> r == []
  {
    if |parts| == 0 then [] else parts[0] + Concat(parts[1..])
  }

  lemma ConcatAppend<T>(a: seq<seq<T>>, b: seq<seq<T>>)
    ensures Concat(a + b) == Concat(a) + Concat(b)
  {
    if |a| == 0 {
      assert a + b == b;
    } else {
      assert (a + b)[1..] == a[1..] + b;
    }
  }

  /** Every element of `s` satisfies `ws`. */
  predicate AllWs<T>(s: seq<T>, ws: T -> bool) {
    forall k :: 0 <= k < |s| ==> ws(s[k])
  }

  /** `r` is what trimming `s` must produce: a contiguous slice of `s` obtained by
      cutting only `ws` elements at both ends, and not itself starting or ending
      with one. This is the specification that `Trim` is proved to meet. */
  ghost predicate IsTrimOf<T>(r: seq<T>, s: seq<T>, ws: T -> bool) {
    exists i: nat, j: nat :: TrimCut(r, s, ws, i, j)
  }

  /** `r` is the slice `s[i..j]`, only `ws` elements lie outside it, and it
      neither starts nor ends with one. */
  ghost predicate TrimCut<T>(r: seq<T>, s: seq<T>, ws: T -> bool, i: nat, j: nat) {
    && i <= j <= |s|
    && r == s[i..j]
    && (forall m :: 0 <= m < i ==> ws(s[m]))
    && (forall m :: j <= m < |s| ==> ws(s[m]))
    && (i == j || (!ws(s[i]) && !ws(s[j - 1])))
  }

  /** The first index at or after `i` that does not hold whitespace, or `|s|`. */
  function SkipForward<T>(s: seq<T>, ws: T -> bool, i: nat): (k: nat)
    requires i <= |s|
    ensures i <= k <= |s|
    ensures forall m :: i <= m < k ==> ws(s[m])
    ensures k < |s| ==> !ws(s[k])
    decreases |s| - i
  {
    if i < |s| && ws(s[i]) then SkipForward(s, ws, i + 1) else i
  }

  /** The index just after the last element before `j` that does not hold
      whitespace, or 0. */
  function SkipBackward<T>(s: seq<T>, ws: T -> bool, j: nat): (k: nat)
    requires j <= |s|
    ensures k <= j
    ensures forall m :: k <= m < j ==> ws(s[m])
    ensures 0 < k ==> !ws(s[k - 1])
    decreases j
  {
    if 0 < j && ws(s[j - 1]) then SkipBackward(s, ws, j - 1) else j
  }

  /** Both ends trimmed (JavaScript `trim`, Python `strip`). */
  function Trim<T>(s: seq<T>, ws: T -> bool): (r: seq<T>)
    ensures IsTrimOf(r, s, ws)
  {
    var i := SkipForward(s, ws, 0);
    var j := SkipBackward(s, ws, |s|);
    if j <= i then
      assert TrimCut([], s, ws, |s|, |s|);
      []
    else
      assert TrimCut(s[i..j], s, ws, i, j);
      s[i..j]
  }

  /** Any result meeting the trimming specification is empty exactly when
      every element of the input is whitespace. */
  lemma TrimOfEmptyIff<T>(r: seq<T>, s: seq<T>, ws: T -> bool)
    requires IsTrimOf(r, s, ws)
    ensures r == [] <==> AllWs(s, ws)
  {
    var i: nat, j: nat :| TrimCut(r, s, ws, i, j);
    if r != [] {
      assert !ws(s[i]);
    }
  }

  /** Two slices that both meet the trimming specification are equal. */
  lemma TrimCutUnique<T>(s: seq<T>, ws: T -> bool, r: seq<T>, i: nat, j: nat, t: seq<T>, i': nat, j': nat)
    requires TrimCut(r, s, ws, i, j) && TrimCut(t, s, ws, i', j')
    ensures r == t
  {
    assert IsTrimOf(r, s, ws) && IsTrimOf(t, s, ws);
    TrimOfEmptyIff(r, s, ws);
    TrimOfEmptyIff(t, s, ws);
    if r != [] {
      assert i == i' && j == j';
    }
  }

  /** The specification determines the trimmed result uniquely, so `Trim` is
      the only function meeting `IsTrimOf`. */
  lemma TrimUnique<T>(s: seq<T>, r: seq<T>, ws: T -> bool)
    requires IsTrimOf(r, s, ws)
    ensures r == Trim(s, ws)
  {
    var t := Trim(s, ws);
    var i: nat, j: nat :| TrimCut(r, s, ws, i, j);
    var i': nat, j': nat :| TrimCut(t, s, ws, i', j');
    TrimCutUnique(s, ws, r, i, j, t, i', j');
  }

  /** Trimming yields nothing exactly when every element is whitespace. */
  lemma TrimEmptyIff<T>(s: seq<T>, ws: T -> bool)
    ensures Trim(s, ws) == [] <==> AllWs(s, ws)
  {
    TrimOfEmptyIff(Trim(s, ws), s, ws);
  }
}

=== FILE: cues.dfy ===
/** Inline image cues (src/components/SimulationInterface.jsx, lines 180-205):
    the displayed text is split on `/(\[Image of .*?\])/g` into alternating
    literal text and cues, and each cue part becomes an image-resolution unit
    keyed by the text between `[Image of ` and `]`. */
module Cues {
  import opened Common
  import opened JsText

  const OPEN: Str := Lit("[Image of ")
  const CLOSE: Unit := 0x5D

  /** A complete cue: `[Image of `, then units that are neither `]` nor a line
      terminator, then `]`. */
  predicate IsCue(c: Str) {
    && |OPEN| < |c|
    && c[..|OPEN|] == OPEN
    && c[|c| - 1] == CLOSE
    && forall m :: |OPEN| <= m < |c| - 1 ==> c[m] != CLOSE && !IsLineTerminator(c[m])
  }

  /** The index of the first `]` or line terminator at or after `k`, or `|s|`. */
  function StopFrom(s: Str, k: nat): (j: nat)
    requires k <= |s|
    ensures k <= j <= |s|
    ensures forall m :: k <= m < j ==> s[m] != CLOSE && !IsLineTerminator(s[m])
    ensures j < |s| ==> s[j] == CLOSE || IsLineTerminator(s[j])
    decreases |s| - k
  {
    if k == |s| || s[k] == CLOSE || IsLineTerminator(s[k]) then k else StopFrom(s, k + 1)
  }

  /** The regular expression tried at index `q`: the end of its match, if it
      matches there. The lazy `.*?` extends over units other than line
      terminators and stops at the first `]`. */
  function CueEnd(s: Str, q: nat): (e: Option<nat>)
    requires q <= |s|
    ensures e.Some? ==> q + |OPEN| < e.value <= |s| && IsCue(s[q..e.value])
  {
    if q + |OPEN| <= |s| && s[q..q + |OPEN|] == OPEN then
      var j := StopFrom(s, q + |OPEN|);
      if j < |s| && s[j] == CLOSE then
        assert s[q..j + 1][..|OPEN|] == s[q..q + |OPEN|];
        Some(j + 1)
      else None
    else None
  }

  /** No match starts anywhere in `s`. */
  predicate NoCue(s: Str) {
    forall q :: 0 <= q <= |s| ==> CueEnd(s, q).None?
  }

  /** `String.prototype.split` with this regular expression: `p` is where the
      pending literal part began, `q` the index being tried. A match emits the
      literal part before it and the captured cue, and scanning resumes after
      the cue; at the end the remaining literal part is emitted. */
  function SplitFrom(s: Str, p: nat, q: nat): (parts: seq<Str>)
    requires p <= q <= |s|
    ensures |parts| % 2 == 1
    decreases |s| - q
  {
    if q == |s| then [s[p..]]
    else match CueEnd(s, q)
      case Some(e) => [s[p..q], s[q..e]] + SplitFrom(s, e, e)
      case None => SplitFrom(s, p, q + 1)
  }

  /** A match inside a slice is a match at the same place of the whole text. */
  lemma CueEndInSlice(s: Str, p: nat, n: nat, r: nat)
    requires p <= n <= |s| && r <= n - p
    requires CueEnd(s[p..n], r).Some?
    ensures CueEnd(s, p + r) == Some(p + CueEnd(s[p..n], r).value)
  {
    var t := s[p..n];
    var e := CueEnd(t, r).value;
    var c := t[r..e];
    assert c == s[p + r..p + e] by {
      forall m | 0 <= m < e - r ensures c[m] == s[p + r + m] {
        assert c[m] == t[r + m];
      }
    }
    assert s[p + r..p + r + |OPEN|] == c[..|OPEN|];
    forall m | p + r + |OPEN| <= m < p + e - 1
      ensures s[m] != CLOSE && !IsLineTerminator(s[m])
    {
      assert c[m - p - r] == s[m];
    }
    assert s[p + e - 1] == c[|c| - 1];
    assert StopFrom(s, p + r + |OPEN|) == p + e - 1;
  }

  /** The shape of a correct split of `s[p..]`. */
  ghost predicate SplitShape(s: Str, p: nat, parts: seq<Str>)
    requires p <= |s|
  {
    && |parts| % 2 == 1
    && Concat(parts) == s[p..]
    && (forall k :: 0 <= k < |parts| && k % 2 == 0 ==> NoCue(parts[k]))
    && (forall k :: 0 <= k < |parts| && k % 2 == 1 ==> IsCue(parts[k]))
  }

  /** Prepending a literal part and a cue to a correct split of the rest
      gives a correct split. */
  lemma SplitShapeCons(s: Str, p: nat, q: nat, e: nat, rest: seq<Str>)
    requires p <= q < e <= |s|
    requires NoCue(s[p..q]) && IsCue(s[q..e])
    requires SplitShape(s, e, rest)
    ensures SplitShape(s, p, [s[p..q], s[q..e]] + rest)
  {
    var parts := [s[p..q], s[q..e]] + rest;
    ConcatAppend([s[p..q], s[q..e]], rest);
    assert Concat([s[p..q], s[q..e]]) == s[p..q] + (s[q..e] + Concat([]));
    assert s[p..] == s[p..q] + s[q..e] + s[e..];
    forall k | 0 <= k < |parts| && k % 2 == 0 ensures NoCue(parts[k]) {
      if k >= 2 { assert parts[k] == rest[k - 2]; }
    }
    forall k | 0 <= k < |parts| && k % 2 == 1 ensures IsCue(parts[k]) {
      if k >= 2 { assert parts[k] == rest[k - 2]; }
    }
  }

  /** The parts the split produces from `p`, `q` on, given that no match
      starts in `[p, q)`, have the shape of a correct split of `s[p..]`. */
  lemma {:induction false} SplitFromParts(s: Str, p: nat, q: nat)
    requires p <= q <= |s|
    requires forall r :: p <= r < q ==> CueEnd(s, r).None?
    ensures SplitShape(s, p, SplitFrom(s, p, q))
    decreases |s| - q
  {
    if q == |s| {
      NoCueBefore(s, p, q);
      assert s[p..q] == s[p..];
      assert Concat([s[p..]]) == s[p..] + Concat([]);
    } else {
      match CueEnd(s, q)
      case Some(e) =>
        NoCueBefore(s, p, q);
        SplitFromParts(s, e, e);
        SplitShapeCons(s, p, q, e, SplitFrom(s, e, e));
      case None =>
        SplitFromParts(s, p, q + 1);
    }
  }

  /** When no match starts in `[p, q)`, the slice `s[p..q]` holds none. */
  lemma NoCueBefore(s: Str, p: nat, q: nat)
    requires p <= q <= |s|
    requires forall r :: p <= r < q ==> CueEnd(s, r).None?
    ensures NoCue(s[p..q])
  {
    forall r | 0 <= r <= q - p ensures CueEnd(s[p..q], r).None? {
      if CueEnd(s[p..q], r).Some? {
        CueEndInSlice(s, p, q, r);
      }
    }
  }

  /** Where the cue pattern tried at `r` ends, for any `r`. */
  function MatchAt(s: Str, r: nat): (e: Option<nat>)
    ensures e.Some? ==> r < e.value <= |s|
  {
    if r <= |s| then CueEnd(s, r) else None
  }

  /** The split a global regular expression makes of `s[p..]`, stated
      without the scan, for a pattern whose match at `r` (if any) ends at
      `m(r)`: each match taken is the one that starts leftmost at or after
      the end of the previous one, so the literal part before it holds no
      match start of the whole text, and the last literal part runs to the
      end with no match starting in it. */
  ghost predicate LeftmostSplit(s: Str, p: nat, parts: seq<Str>, m: nat -> Option<nat>)
    requires p <= |s|
    decreases |parts|
  {
    if |parts| == 1 then
      && parts[0] == s[p..]
      && forall r :: p <= r <= |s| ==> m(r).None?
    else
      && |parts| >= 3
      && var q := p + |parts[0]|;
      && var e := q + |parts[1]|;
      && e <= |s|
      && parts[0] == s[p..q] && parts[1] == s[q..e]
      && m(q) == Some(e)
      && (forall r :: p <= r < q ==> m(r).None?)
      && LeftmostSplit(s, e, parts[2..], m)
  }

  /** There is only one leftmost split: two splits of `s[p..]` that both take
      each match leftmost are the same, whatever the pattern. */
  lemma {:induction false} LeftmostSplitUnique(s: Str, p: nat, a: seq<Str>, b: seq<Str>, m: nat -> Option<nat>)
    requires p <= |s|
    requires LeftmostSplit(s, p, a, m) && LeftmostSplit(s, p, b, m)
    ensures a == b
    decreases |a|
  {
    var q := SameFirstMatch(s, p, a, b, m);
    if q <= |s| {
      var e := LeftmostRests(s, p, a, b, m);
      LeftmostSplitUnique(s, e, a[2..], b[2..], m);
      SameHeadsSameSeq(a, b);
    }
  }

  /** Two leftmost splits find the same first match, if any. */
  lemma SameFirstMatch(s: Str, p: nat, a: seq<Str>, b: seq<Str>, m: nat -> Option<nat>) returns (q: nat)
    requires p <= |s|
    requires LeftmostSplit(s, p, a, m) && LeftmostSplit(s, p, b, m)
    ensures q > |s| ==> a == b
    ensures q <= |s| ==> |a| > 1 && |b| > 1 && a[0] == b[0] && a[1] == b[1]
    ensures q <= |s| ==> q == p + |a[0]|
  {
    var qa := LeftmostHead(s, p, a, m);
    var qb := LeftmostHead(s, p, b, m);
    FirstStartsAgree(s, p, qa, qb, m);
    q := qa;
  }

  /** What follows the same first cue of two leftmost splits is a leftmost
      split in both. */
  lemma LeftmostRests(s: Str, p: nat, a: seq<Str>, b: seq<Str>, m: nat -> Option<nat>) returns (e: nat)
    requires p <= |s| && LeftmostSplit(s, p, a, m) && LeftmostSplit(s, p, b, m)
    requires |a| > 1 && |b| > 1 && a[0] == b[0] && a[1] == b[1]
    ensures e <= |s| && LeftmostSplit(s, e, a[2..], m) && LeftmostSplit(s, e, b[2..], m)
  {
    e := p + |a[0]| + |a[1]|;
  }

  /** Two starts, each the first match at or after `p` (or `|s| + 1` for
      none), are the same. */
  lemma FirstStartsAgree(s: Str, p: nat, qa: nat, qb: nat, m: nat -> Option<nat>)
    requires p <= qa <= |s| + 1 && p <= qb <= |s| + 1
    requires qa <= |s| ==> m(qa).Some?
    requires qb <= |s| ==> m(qb).Some?
    requires forall r :: p <= r < qa && r <= |s| ==> m(r).None?
    requires forall r :: p <= r < qb && r <= |s| ==> m(r).None?
    ensures qa == qb
  {
  }

  /** Where the first match of a leftmost split starts (`|s| + 1` when there
      is none), and what the first parts are. */
  lemma LeftmostHead(s: Str, p: nat, a: seq<Str>, m: nat -> Option<nat>) returns (q: nat)
    requires p <= |s| && LeftmostSplit(s, p, a, m)
    ensures p <= q && forall r :: p <= r < q && r <= |s| ==> m(r).None?
    ensures |a| == 1 <==> q == |s| + 1
    ensures q <= |s| + 1 && (q <= |s| ==> m(q).Some?)
    ensures |a| == 1 ==> a == [s[p..]]
    ensures |a| > 1 ==> && q == p + |a[0]| && m(q) == Some(q + |a[1]|)
                        && a[0] == s[p..q] && a[1] == s[q..q + |a[1]|]
                        && q + |a[1]| <= |s| && LeftmostSplit(s, q + |a[1]|, a[2..], m)
  {
    q := if |a| == 1 then |s| + 1 else p + |a[0]|;
  }

  lemma SameHeadsSameSeq(a: seq<Str>, b: seq<Str>)
    requires |a| >= 2 && |b| >= 2 && a[0] == b[0] && a[1] == b[1] && a[2..] == b[2..]
    ensures a == b
  {
    assert a == [a[0], a[1]] + a[2..];
    assert b == [b[0], b[1]] + b[2..];
  }

  /** The scan from `p`, `q`, when no match starts in `[p, q)`, makes the
      leftmost split of `s[p..]` for the cue pattern. */
  lemma {:induction false} SplitFromLeftmost(s: Str, p: nat, q: nat)
    requires p <= q <= |s|
    requires forall r :: p <= r < q ==> CueEnd(s, r).None?
    ensures LeftmostSplit(s, p, SplitFrom(s, p, q), r => MatchAt(s, r))
    decreases |s| - q
  {
    var m: nat -> Option<nat> := r => MatchAt(s, r);
    forall r | p <= r < q ensures m(r).None? {
      assert m(r) == CueEnd(s, r);
    }
    if q == |s| {
      assert m(q) == CueEnd(s, q);
      LeftmostLast(s, p, m);
    } else {
      match CueEnd(s, q)
      case Some(e) =>
        SplitFromLeftmost(s, e, e);
        assert m(q) == Some(e);
        LeftmostCons(s, p, q, e, SplitFrom(s, e, e), m);
      case None =>
        SplitFromLeftmost(s, p, q + 1);
    }
  }

  lemma LeftmostLast(s: Str, p: nat, m: nat -> Option<nat>)
    requires p <= |s|
    requires forall r :: p <= r <= |s| ==> m(r).None?
    ensures LeftmostSplit(s, p, [s[p..]], m)
  {
  }

  lemma LeftmostCons(s: Str, p: nat, q: nat, e: nat, rest: seq<Str>, m: nat -> Option<nat>)
    requires p <= q < e <= |s|
    requires m(q) == Some(e)
    requires forall r :: p <= r < q ==> m(r).None?
    requires LeftmostSplit(s, e, rest, m)
    ensures LeftmostSplit(s, p, [s[p..q], s[q..e]] + rest, m)
  {
    var parts := [s[p..q], s[q..e]] + rest;
    assert parts[2..] == rest;
  }

  /** `text.split(/(\[Image of .*?\])/g)`: an odd number of parts that spell
      the text again; even-indexed parts are literal text holding no cue and
      odd-indexed parts are complete cues; and each cue is the leftmost
      match, so the split is the only leftmost one (`LeftmostSplitUnique`). */
  function Split(s: Str): (parts: seq<Str>)
    ensures |parts| % 2 == 1
    ensures Concat(parts) == s
    ensures forall k :: 0 <= k < |parts| && k % 2 == 0 ==> NoCue(parts[k])
    ensures forall k :: 0 <= k < |parts| && k % 2 == 1 ==> IsCue(parts[k])
    ensures LeftmostSplit(s, 0, parts, r => MatchAt(s, r))
  {
    SplitFromParts(s, 0, 0);
    SplitFromLeftmost(s, 0, 0);
    SplitFrom(s, 0, 0)
  }

  /** Any split of the text that takes each cue leftmost is the one `Split`
      returns. */
  lemma SplitIsTheLeftmostSplit(s: Str, parts: seq<Str>)
    requires LeftmostSplit(s, 0, parts, r => MatchAt(s, r))
    ensures parts == Split(s)
  {
    LeftmostSplitUnique(s, 0, parts, Split(s), r => MatchAt(s, r));
  }


  /** A text that is one complete cue splits into that cue between two
      empty literal parts. */
  lemma CueAloneSplit(c: Str)
    requires IsCue(c)
    ensures Split(c) == [[], c, []]
  {
    CueEndOfCue(c);
    assert SplitFrom(c, |c|, |c|) == [c[|c|..]];
    assert c[|c|..] == [];
    assert SplitFrom(c, 0, 0) == [c[0..0], c[0..|c|]] + [[]];
    assert c[0..0] == [] && c[0..|c|] == c;
    assert Split(c) == SplitFrom(c, 0, 0);
  }

  /** `[Image of ` itself holds no `]` and no line terminator. */
  lemma OpenIsPlain()
    ensures forall m :: 0 <= m < |OPEN| ==> OPEN[m] != CLOSE && !IsLineTerminator(OPEN[m])
  {
    var o := "[Image of ";
    LitExcludes(o, ']');
    LitExcludes(o, '\n');
    LitExcludes(o, '\r');
    LitExcludes(o, '\U{2028}');
    LitExcludes(o, '\U{2029}');
    assert UnitOf(']') == CLOSE;
  }

  /** Where a second `[Image of ` opens before the first is closed, the match
      starts at the first one: `[Image of [Image of b]` is one cue. */
  lemma NestedOpenIsOneCue()
    ensures var s := OPEN + OPEN + Lit("b]");
      Split(s) == [[], s, []]
  {
    var s := OPEN + OPEN + Lit("b]");
    OpenIsPlain();
    assert s[..|OPEN|] == OPEN;
    assert s[|s| - 1] == CLOSE;
    forall m | |OPEN| <= m < |s| - 1 ensures s[m] != CLOSE && !IsLineTerminator(s[m]) {
      if m < 2 * |OPEN| {
        assert s[m] == OPEN[m - |OPEN|];
      }
    }
    CueAloneSplit(s);
  }


  /** When no match starts at or after `q`, the split emits the rest of the
      text as one literal part. */
  lemma {:induction false} SplitFromNoMore(s: Str, p: nat, q: nat)
    requires p <= q <= |s|
    requires forall r :: q <= r <= |s| ==> CueEnd(s, r).None?
    ensures SplitFrom(s, p, q) == [s[p..]]
    decreases |s| - q
  {
    if q < |s| {
      SplitFromNoMore(s, p, q + 1);
    }
  }

  /** Text without a `]` holds no cue: it is a single literal part. */
  lemma NoCloseNoCue(s: Str)
    requires CLOSE !in s
    ensures Split(s) == [s]
  {
    assert forall r :: 0 <= r <= |s| ==> CueEnd(s, r).None?;
    SplitFromNoMore(s, 0, 0);
    assert s[0..] == s;
  }

  /** The cue of a complete cue part is found at its start and spans it. */
  lemma CueEndOfCue(c: Str)
    ensures IsCue(c) ==> CueEnd(c, 0) == Some(|c|)
  {
    if IsCue(c) {
      assert c[0..|OPEN|] == c[..|OPEN|];
      assert StopFrom(c, |OPEN|) == |c| - 1;
    }
  }

  /** The text between `[Image of ` and `]`: the first capture group. */
  function Query(c: Str): (q: Str)
    requires IsCue(c)
    ensures forall m :: 0 <= m < |q| ==> q[m] != CLOSE && !IsLineTerminator(q[m])
  {
    c[|OPEN|..|c| - 1]
  }

  /** `part.match(/\[Image of (.*?)\]/)` searched from index `q`: the capture
      of the leftmost match, if any. */
  function MatchQuery(part: Str, q: nat): (r: Option<Str>)
    requires q <= |part|
    ensures r.Some? ==> forall m :: 0 <= m < |r.value| ==> r.value[m] != CLOSE && !IsLineTerminator(r.value[m])
    ensures r.None? <==> forall k :: q <= k <= |part| ==> CueEnd(part, k).None?
    decreases |part| - q
  {
    match CueEnd(part, q)
    case Some(e) => Some(Query(part[q..e]))
    case None => if q == |part| then None else MatchQuery(part, q + 1)
  }

  /** What the renderer makes of one part. */
  datatype Block = Markdown(text: Str) | Diagram(query: Str)

  /** One part of the split: formatted text when it holds no cue, the
      diagram of its query when it is a cue. */
  function RenderPart(part: Str): (b: Block)
    ensures b.Markdown? ==> b.text == part
    ensures NoCue(part) ==> b == Markdown(part)
    ensures IsCue(part) ==> b == Diagram(Query(part))
  {
    CueEndOfCue(part);
    assert part[0..|part|] == part;
    match MatchQuery(part, 0)
    case Some(q) => Diagram(q)
    case None => Markdown(part)
  }

  /** `renderScenarioWithImages`: every literal part becomes formatted text and
      every cue part becomes a diagram whose query holds no `]` and no line
      terminator. */
  function Render(text: Str): (blocks: seq<Block>)
    ensures |blocks| == |Split(text)|
    ensures forall k :: 0 <= k < |blocks| && k % 2 == 0 ==> blocks[k] == Markdown(Split(text)[k])
    ensures forall k :: 0 <= k < |blocks| && k % 2 == 1 ==>
      && IsCue(Split(text)[k])
      && blocks[k] == Diagram(Query(Split(text)[k]))
      && forall m :: 0 <= m < |blocks[k].query| ==> blocks[k].query[m] != CLOSE && !IsLineTerminator(blocks[k].query[m])
  {
    var parts := Split(text);
    seq(|parts|, k requires 0 <= k < |parts| => RenderPart(parts[k]))
  }

  /** The odd-indexed parts: the cues, in order. */
  function CuesOf(parts: seq<Str>): (cues: seq<Str>)
    ensures |cues| == |parts| / 2
    ensures forall k :: 0 <= k < |cues| ==> cues[k] == parts[2 * k + 1]
    decreases |parts|
  {
    if |parts| < 2 then [] else [parts[1]] + CuesOf(parts[2..])
  }

  /** Once a match at `q` runs past the end of the prefix `s[..n]`, the prefix
      holds no `]` from `q + |OPEN|` on, so no match starts at or after `q` in it. */
  lemma OpenCueBlocksPrefix(s: Str, n: nat, q: nat)
    requires q <= n <= |s|
    requires CueEnd(s, q).Some? && CueEnd(s, q).value > n
    ensures forall r :: q <= r <= n ==> CueEnd(s[..n], r).None?
  {
    assert forall r :: q <= r <= n ==> CueEnd(s[..n], r).None?;
  }

  /** A match in the whole text that ends within the prefix is also a match in the prefix. */
  lemma CueEndInPrefix(s: Str, n: nat, q: nat)
    requires q <= n <= |s|
    requires CueEnd(s, q).Some? && CueEnd(s, q).value <= n
    ensures CueEnd(s[..n], q) == CueEnd(s, q)
  {
    var e := CueEnd(s, q).value;
    var t := s[..n];
    assert t[q..q + |OPEN|] == s[q..q + |OPEN|];
    assert forall m :: q + |OPEN| <= m < e ==> t[m] == s[m];
    assert StopFrom(t, q + |OPEN|) == StopFrom(s, q + |OPEN|) by {
      var j := StopFrom(s, q + |OPEN|);
      assert j == e - 1 by {
        assert s[q..e][e - 1 - q] == s[e - 1];
      }
    }
  }

  lemma CuesOfCons(a: Str, b: Str, rest: seq<Str>)
    ensures CuesOf([a, b] + rest) == [b] + CuesOf(rest)
  {
    assert ([a, b] + rest)[2..] == rest;
  }

  /** The split of a prefix and of the whole text, run from the same place,
      emit the same cues up to the point where the prefix ends. */
  lemma {:induction false} SplitFromPrefix(s: Str, n: nat, p: nat, q: nat)
    requires p <= q <= n <= |s|
    ensures IsPrefix(CuesOf(SplitFrom(s[..n], p, q)), CuesOf(SplitFrom(s, p, q)))
    decreases n - q
  {
    var t := s[..n];
    if q == n {
      assert SplitFrom(t, p, q) == [t[p..]];
    } else if CueEnd(s, q).None? {
      NoCueInPrefix(s, n, q);
      SplitFromPrefix(s, n, p, q + 1);
    } else if CueEnd(s, q).value <= n {
      SplitFromPrefixCue(s, n, p, q);
    } else {
      OpenCueBlocksPrefix(s, n, q);
      SplitFromNoMore(t, p, q);
    }
  }

  /** No cue of the prefix starts where the whole text has none. */
  lemma NoCueInPrefix(s: Str, n: nat, q: nat)
    requires q < n <= |s|
    requires CueEnd(s, q).None?
    ensures CueEnd(s[..n], q).None?
  {
    if CueEnd(s[..n], q).Some? {
      assert s[0..n] == s[..n];
      CueEndInSlice(s, 0, n, q);
    }
  }

  lemma {:induction false} SplitFromPrefixCue(s: Str, n: nat, p: nat, q: nat)
    requires p <= q < n <= |s|
    requires CueEnd(s, q).Some? && CueEnd(s, q).value <= n
    ensures IsPrefix(CuesOf(SplitFrom(s[..n], p, q)), CuesOf(SplitFrom(s, p, q)))
    decreases n - q, 0
  {
    var t := s[..n];
    var e := CueEnd(s, q).value;
    CueEndInPrefix(s, n, q);
    SplitFromPrefix(s, n, e, e);
    assert t[p..q] == s[p..q] && t[q..e] == s[q..e];
    assert SplitFrom(t, p, q) == [t[p..q], t[q..e]] + SplitFrom(t, e, e);
    assert SplitFrom(s, p, q) == [s[p..q], s[q..e]] + SplitFrom(s, e, e);
    CuesOfCons(t[p..q], t[q..e], SplitFrom(t, e, e));
    CuesOfCons(s[p..q], s[q..e], SplitFrom(s, e, e));
  }

  /** While the text is being revealed, the diagrams on screen are the first
      cues of the full text, in order: a cue becomes a diagram only once its
      closing `]` is displayed, and a diagram once shown stays. */
  lemma DiagramsFollowReveal(s: Str, n: nat)
    requires n <= |s|
    ensures IsPrefix(CuesOf(Split(s[..n])), CuesOf(Split(s)))
  {
    SplitFromPrefix(s, n, 0, 0);
  }
}

=== FILE: diagram.dfy ===
/** The image-cue component `ErnieDiagram`
    (src/components/SimulationInterface.jsx, lines 94-123): a loading/loaded
    state machine whose asynchronous fetches are guarded by a per-effect
    `mounted` flag. */
module Diagram {
  import opened Common
  import opened JsText

  /** The component's state: `imgSrc`, `loading`, the number of the latest
      effect run (only its `mounted` flag can still be true), and whether the
      component is gone. */
  datatype State = State(imgSrc: Option<Str>, loading: bool, run: nat, unmounted: bool)

  /** How the `/generate_image` request of one effect run ended: a response
      carrying `data.image` (`None` when it is absent or null), or an exception. */
  datatype Fetch = Responded(image: Option<Str>) | Failed

  /** What can happen to a mounted diagram. */
  datatype Event =
    | QueryChanged            // the effect's cleanup runs, then a new run fetches
    | Settled(run: nat, result: Fetch)
    | Unmounted

  /** Lines 95-98 and 118: `imgSrc` starts null, `loading` true, and effect
      run 0 issues its fetch. */
  function Mount(): (s: State)
    ensures s.loading && s.imgSrc == None && !s.unmounted
  {
    State(None, true, 0, false)
  }

  /** The `mounted` flag of effect run `run` is still true. */
  predicate Live(s: State, run: nat) {
    run == s.run && !s.unmounted
  }

  /** `res.data?.image` is truthy: present and not the empty string. */
  predicate Truthy(image: Option<Str>) {
    image.Some? && |image.value| > 0
  }

  /** One event. A fetch that settles for a run whose `mounted` flag is
      false changes nothing; a live one sets `imgSrc` when the image is
      truthy and then clears `loading` (the `finally` block). */
  function Step(s: State, e: Event): (r: State)
    ensures s.unmounted ==> r == s
    ensures e.Settled? && !Live(s, e.run) ==> r == s
    ensures r.imgSrc != s.imgSrc ==>
      e.Settled? && Live(s, e.run) && e.result.Responded? && Truthy(e.result.image) && r.imgSrc == e.result.image
    ensures e.Settled? && Live(s, e.run) ==> !r.loading
    ensures e.Settled? && Live(s, e.run) && e.result.Responded? && Truthy(e.result.image) ==> r.imgSrc == e.result.image
    ensures e.QueryChanged? && !s.unmounted ==> r.loading && r.run == s.run + 1 && !Live(r, s.run)
    ensures e.Unmounted? ==> r == s.(unmounted := true)
  {
    if s.unmounted then s
    else
      match e
      case QueryChanged => s.(loading := true, run := s.run + 1)
      case Unmounted => s.(unmounted := true)
      case Settled(run, result) =>
        if run != s.run then s
        else
          var img := if result.Responded? && Truthy(result.image) then result.image else s.imgSrc;
          s.(imgSrc := img, loading := false)
  }

  /** A sequence of events. The effect-run number counts the query changes
      seen while mounted, so it never goes back, and an unmounted diagram
      stays unmounted. */
  function Run(s: State, es: seq<Event>): (r: State)
    ensures s.run <= r.run <= s.run + |es|
    ensures s.unmounted ==> r.unmounted
    ensures r.run > s.run ==> exists k :: 0 <= k < |es| && es[k].QueryChanged?
    decreases |es|
  {
    if |es| == 0 then s else Run(Step(s, es[0]), es[1..])
  }

  /** No state changes after unmount, whatever arrives later. */
  lemma {:induction false} FrozenAfterUnmount(s: State, es: seq<Event>)
    requires s.unmounted
    ensures Run(s, es) == s
    decreases |es|
  {
    if |es| > 0 {
      FrozenAfterUnmount(Step(s, es[0]), es[1..]);
    }
  }

  /** The image shown is always one a live fetch delivered: over any run of
      events, `imgSrc` is either still the initial value or a truthy image. */
  lemma {:induction false} ImageComesFromLiveFetch(s: State, es: seq<Event>)
    requires s.imgSrc == None || Truthy(s.imgSrc)
    ensures Run(s, es).imgSrc == None || Truthy(Run(s, es).imgSrc)
    decreases |es|
  {
    if |es| > 0 {
      ImageComesFromLiveFetch(Step(s, es[0]), es[1..]);
    }
  }

  /** As written, a new query does not clear the old image: when the new
      fetch fails, the diagram for the new query shows the previous image. */
  lemma OldImageSurvivesFailedRefetch(img: Str)
    requires |img| > 0
    ensures var s := Run(Mount(), [Settled(0, Responded(Some(img))), QueryChanged, Settled(1, Failed)]);
      s.imgSrc == Some(img) && !s.loading
  {
    var s1 := Step(Mount(), Settled(0, Responded(Some(img))));
    var s2 := Step(s1, QueryChanged);
    var s3 := Step(s2, Settled(1, Failed));
    assert Run(Mount(), [Settled(0, Responded(Some(img))), QueryChanged, Settled(1, Failed)]) == s3 by {
      assert [Settled(0, Responded(Some(img))), QueryChanged, Settled(1, Failed)][1..] == [QueryChanged, Settled(1, Failed)];
      assert [QueryChanged, Settled(1, Failed)][1..] == [Settled(1, Failed)];
    }
  }
}

=== FILE: extraction.dfy ===
/** Text extraction from an uploaded manual (backend/main.py, lines 89-111):
    the text layer of the first ten pages of a PDF, then OCR when that gives
    fewer than fifty characters. The PDF reader and the OCR engine are
    foreign; what they return is a parameter. */
module Extraction {
  import opened Common
  import opened PyText

  const PDF_SUFFIX: string := ".pdf"
  /** `pdf.pages[:10]`. */
  const PAGE_LIMIT: nat := 10
  /** Below this many characters the OCR engine is consulted. */
  const OCR_THRESHOLD: nat := 50

  /** `filename.lower().endswith(".pdf")`: the last four characters spell
      `.pdf` in any mix of ASCII letter cases. */
  function IsPdf(filename: string): (b: bool)
    ensures b <==> (|filename| >= |PDF_SUFFIX| &&
      forall k :: 0 <= k < |PDF_SUFFIX| ==> LowerChar(filename[|filename| - |PDF_SUFFIX| + k]) == PDF_SUFFIX[k])
  {
    var low := Lower(filename);
    assert EndsWith(low, PDF_SUFFIX) ==> forall k :: 0 <= k < |PDF_SUFFIX| ==> low[|low| - |PDF_SUFFIX|..][k] == PDF_SUFFIX[k];
    EndsWith(low, PDF_SUFFIX)
  }

  /** The suffix test ignores letter case but not what follows the suffix. */
  lemma PdfSuffixExamples()
    ensures IsPdf("Notes.PDF") && IsPdf("a.Pdf")
    ensures !IsPdf("notes.pdf.txt") && !IsPdf("pdf")
  {
    assert IsPdf("Notes.PDF") by {
      var f := "Notes.PDF";
      assert LowerChar(f[6]) == 'p' && LowerChar(f[7]) == 'd' && LowerChar(f[8]) == 'f';
    }
    assert IsPdf("a.Pdf") by {
      var f := "a.Pdf";
      assert LowerChar(f[2]) == 'p';
    }
    assert !IsPdf("notes.pdf.txt") by {
      assert LowerChar("notes.pdf.txt"[10]) != PDF_SUFFIX[1];
    }
  }

  /** What the PDF reader does with the file: the value of `extract_text()`
      for each page in order (`None` when a page has no text layer), and the
      index of the first page whose reading raises, if any. A file the
      reader cannot open at all is a raise at page 0. */
  datatype PdfSource = PdfSource(pages: seq<Option<string>>, raisesAt: Option<nat>)

  /** How many pages are read to completion. */
  function PagesRead(src: PdfSource): (n: nat)
    ensures n <= PAGE_LIMIT && n <= |src.pages|
    ensures src.raisesAt.Some? ==> n <= src.raisesAt.value
    ensures n == |Take(src.pages, PAGE_LIMIT)| || (src.raisesAt.Some? && n == src.raisesAt.value)
  {
    var n := if |src.pages| < PAGE_LIMIT then |src.pages| else PAGE_LIMIT;
    match src.raisesAt
    case Some(k) => if k < n then k else n
    case None => n
  }

  /** The text a page contributes: its text and a newline, when that text is
      truthy. */
  function PageText(p: Option<string>): string {
    match p
    case Some(t) => if |t| > 0 then t + "\n" else []
    case None => []
  }

  /** The loop of lines 96-99 over the first `n` pages. */
  function ReadPages(pages: seq<Option<string>>, n: nat): (text: string)
    requires n <= |pages|
    ensures |text| > 0 ==> text[|text| - 1] == '\n'
    decreases n
  {
    if n == 0 then [] else ReadPages(pages, n - 1) + PageText(pages[n - 1])
  }

  /** The text layer gathered before the loop ends or raises. */
  function PdfText(src: PdfSource): string {
    ReadPages(src.pages, PagesRead(src))
  }

  /** What the OCR engine does: raise, or return its `result` list, whose
      first entry is a page's list of recognised lines (reduced to their
      text) or `None`. */
  datatype OcrOutcome = OcrRaised | OcrReturned(result: seq<Option<seq<string>>>)

  /** The lines `result[0]` holds when both `result` and `result[0]` are truthy. */
  function OcrLines(o: OcrOutcome): (lines: Option<seq<string>>)
    ensures lines.Some? ==> |lines.value| > 0
    ensures lines.Some? <==> o.OcrReturned? && |o.result| > 0 && o.result[0].Some? && |o.result[0].value| > 0
    ensures lines.Some? ==> lines == o.result[0]
  {
    match o
    case OcrRaised => None
    case OcrReturned(result) =>
      if |result| > 0 && result[0].Some? && |result[0].value| > 0 then result[0] else None
  }

  /** `extract_text_from_file`: the PDF text layer when the name ends in
      `.pdf`, then the OCR lines joined by newlines when the text so far is
      shorter than the threshold. */
  function ExtractText(filename: string, pdf: PdfSource, ocr: OcrOutcome): (text: string)
    ensures IsPdf(filename) ==> IsPrefix(PdfText(pdf), text)
    ensures IsPdf(filename) && |PdfText(pdf)| >= OCR_THRESHOLD ==> text == PdfText(pdf)
    ensures OcrLines(ocr).None? ==> text == if IsPdf(filename) then PdfText(pdf) else []
  {
    var layer := if IsPdf(filename) then PdfText(pdf) else [];
    if |layer| < OCR_THRESHOLD then
      match OcrLines(ocr)
      case Some(lines) => layer + Join("\n", lines)
      case None => layer
    else layer
  }

  /** Each page read with text adds that text followed by a newline, in
      page order; pages without text add nothing. */
  lemma {:induction false} ReadPagesSpec(pages: seq<Option<string>>, n: nat)
    requires n <= |pages|
    ensures ReadPages(pages, n) == Concat(seq(n, k requires 0 <= k < n => PageText(pages[k])))
    decreases n
  {
    if n > 0 {
      ReadPagesSpec(pages, n - 1);
      var parts := seq(n, k requires 0 <= k < n => PageText(pages[k]));
      var init := seq(n - 1, k requires 0 <= k < n - 1 => PageText(pages[k]));
      assert parts == init + [PageText(pages[n - 1])];
      ConcatAppend(init, [PageText(pages[n - 1])]);
      assert Concat([PageText(pages[n - 1])]) == PageText(pages[n - 1]);
    }
  }

  /** Pages past the tenth never contribute: two PDFs that agree on their
      first ten pages (and raise at the same place within them) give the
      same text layer. */
  lemma PagesBeyondLimitIgnored(a: PdfSource, b: PdfSource)
    requires Take(a.pages, PAGE_LIMIT) == Take(b.pages, PAGE_LIMIT)
    requires a.raisesAt == b.raisesAt
    ensures PdfText(a) == PdfText(b)
  {
    var n := PagesRead(a);
    assert n == PagesRead(b);
    ReadPagesPrefix(a.pages, Take(a.pages, PAGE_LIMIT), n);
    ReadPagesPrefix(b.pages, Take(b.pages, PAGE_LIMIT), n);
  }

  /** `ReadPages` only looks at the first `n` pages. */
  lemma {:induction false} ReadPagesPrefix(pages: seq<Option<string>>, pre: seq<Option<string>>, n: nat)
    requires n <= |pre| <= |pages| && pre == pages[..|pre|]
    ensures ReadPages(pages, n) == ReadPages(pre, n)
    decreases n
  {
    if n > 0 {
      ReadPagesPrefix(pages, pre, n - 1);
      assert ReadPages(pages, n) == ReadPages(pages, n - 1) + PageText(pages[n - 1]);
      assert ReadPages(pre, n) == ReadPages(pre, n - 1) + PageText(pre[n - 1]);
      assert pre[n - 1] == pages[n - 1];
    }
  }

  /** Once the text layer reaches the threshold the OCR engine is ignored,
      whatever it would have returned. */
  lemma OcrIgnoredForLongText(filename: string, pdf: PdfSource, o1: OcrOutcome, o2: OcrOutcome)
    requires IsPdf(filename) && |PdfText(pdf)| >= OCR_THRESHOLD
    ensures ExtractText(filename, pdf, o1) == ExtractText(filename, pdf, o2) == PdfText(pdf)
  {
  }

  /** Below the threshold the recognised lines are appended to the text
      layer, joined by newlines; a raising or empty OCR adds nothing. */
  lemma OcrAppendedForShortText(filename: string, pdf: PdfSource, ocr: OcrOutcome)
    ensures var layer := if IsPdf(filename) then PdfText(pdf) else [];
      |layer| < OCR_THRESHOLD ==>
        ExtractText(filename, pdf, ocr) ==
          layer + (if OcrLines(ocr).Some? then Join("\n", OcrLines(ocr).value) else [])
  {
  }

  /** A file whose name does not end in `.pdf` (in any letter case) is read
      by OCR alone. */
  lemma NonPdfIsOcrOnly(filename: string, pdf: PdfSource, ocr: OcrOutcome)
    requires !IsPdf(filename)
    ensures ExtractText(filename, pdf, ocr) == if OcrLines(ocr).Some? then Join("\n", OcrLines(ocr).value) else []
  {
  }
}

=== FILE: image_endpoint.dfy ===
/** The `/generate_image` endpoint (backend/main.py, lines 214-255): the
    blueprint prompt built from the requested object and the stored topic,
    then a data URL from the image service or, when that raises, a link to
    the fallback service with the prompt in its path. */
module ImageEndpoint {
  import opened Common
  import opened PyText
  import Backend

  const PROMPT_HEAD: string := "Technical schematic drawing of "
  const PROMPT_JOIN: string := " in context of "
  const STYLE_COLOURS: string := ", white lines on blue background"
  const STYLE_KIND: string := ", blueprint style, high definition"
  const PROMPT_STYLE: string := STYLE_COLOURS + STYLE_KIND
  const DATA_URL_HEAD: string := "data:image/png;base64,"
  const FALLBACK_HEAD: string := "https://image.pollinations.ai/prompt/"
  const FALLBACK_QUERY: string := "?width=512&height=512&model=flux&nologo=true"

  /** Lines 219-223. */
  function FullPrompt(prompt: string, topic: string): (p: string)
    ensures IsPrefix(PROMPT_HEAD, p)
    ensures Contains(p, prompt) && Contains(p, topic)
  {
    var p := PROMPT_HEAD + prompt + PROMPT_JOIN + topic + PROMPT_STYLE;
    assert OccursAt(p, prompt, |PROMPT_HEAD|);
    assert OccursAt(p, topic, |PROMPT_HEAD| + |prompt| + |PROMPT_JOIN|);
    p
  }

  /** What the image service does: return the PNG, here already encoded in
      base64, or raise. */
  datatype Generation = Generated(base64: string) | GenerationRaised

  /** `full_prompt.replace(" ", "%20")`. */
  function Escape(s: string): (e: string)
    ensures ' ' !in e
  {
    ReplaceCharGone(s, ' ', PERCENT_SPACE);
    Replace(s, " ", PERCENT_SPACE)
  }

  /** Lines 214-255: the `image` field returned. */
  function GenerateImage(c: Backend.Context, prompt: string, gen: Generation): (url: string)
    ensures gen.Generated? ==> url == DATA_URL_HEAD + gen.base64
    ensures gen.GenerationRaised? ==>
      url == FALLBACK_HEAD + Escape(FullPrompt(prompt, c.topic)) + FALLBACK_QUERY
  {
    match gen
    case Generated(b64) => DATA_URL_HEAD + b64
    case GenerationRaised => FALLBACK_HEAD + Escape(FullPrompt(prompt, c.topic)) + FALLBACK_QUERY
  }

  /** The fallback link holds no space, whatever the prompt and the topic. */
  lemma FallbackHasNoSpace(c: Backend.Context, prompt: string)
    ensures ' ' !in GenerateImage(c, prompt, GenerationRaised)
  {
    LinkPartsLackSpace();
    NotInConcat3(FALLBACK_HEAD, Escape(FullPrompt(prompt, c.topic)), FALLBACK_QUERY, ' ');
  }

  /** The fallback link carries the whole prompt: between its fixed head and
      query lies the escaped prompt, and decoding `%20` there gives the
      prompt back when neither the object nor the topic holds a `%`. */
  lemma FallbackCarriesPrompt(c: Backend.Context, prompt: string)
    requires '%' !in prompt && '%' !in c.topic
    ensures var url := GenerateImage(c, prompt, GenerationRaised);
      && |FALLBACK_HEAD| + |FALLBACK_QUERY| <= |url|
      && Replace(url[|FALLBACK_HEAD|..|url| - |FALLBACK_QUERY|], PERCENT_SPACE, " ") == FullPrompt(prompt, c.topic)
  {
    var p := FullPrompt(prompt, c.topic);
    var url := GenerateImage(c, prompt, GenerationRaised);
    assert url[|FALLBACK_HEAD|..|url| - |FALLBACK_QUERY|] == Escape(p);
    PromptPartsLackPercent();
    NotInConcat3(PROMPT_HEAD, prompt, PROMPT_JOIN, '%');
    NotInConcat3(PROMPT_HEAD + prompt + PROMPT_JOIN, c.topic, PROMPT_STYLE, '%');
    SpaceEscapeRoundTrip(p);
  }

  /** The fixed parts of the link hold no space. */
  lemma LinkPartsLackSpace()
    ensures ' ' !in FALLBACK_HEAD && ' ' !in FALLBACK_QUERY
  {
    NoSpaceIn(FALLBACK_HEAD);
    NoSpaceIn(FALLBACK_QUERY);
  }

  /** The fixed parts of the prompt hold no `%`. */
  lemma PromptPartsLackPercent()
    ensures '%' !in PROMPT_HEAD && '%' !in PROMPT_JOIN && '%' !in PROMPT_STYLE
  {
    NoPercentIn(PROMPT_HEAD);
    NoPercentIn(PROMPT_JOIN);
    NoPercentIn(STYLE_COLOURS);
    NoPercentIn(STYLE_KIND);
  }

  /** The URL characters used by the fixed parts, none of them a space. */
  predicate UrlChar(ch: char) {
    ('a' <= ch <= 'z') || ('0' <= ch <= '9') || ch in ":/.?&="
  }

  /** The characters of the fixed prompt text, none of them a `%`. */
  predicate ProseChar(ch: char) {
    ('a' <= ch <= 'z') || ('A' <= ch <= 'Z') || ch == ' ' || ch == ','
  }

  lemma NoSpaceIn(s: string)
    requires forall k :: 0 <= k < |s| ==> UrlChar(s[k])
    ensures ' ' !in s
  {
  }

  lemma NoPercentIn(s: string)
    requires forall k :: 0 <= k < |s| ==> ProseChar(s[k])
    ensures '%' !in s
  {
  }

  lemma NotInConcat3(a: string, b: string, c: string, ch: char)
    requires ch !in a && ch !in b && ch !in c
    ensures ch !in a + b + c
  {
  }

  /** The topic set by the last upload reaches the prompt of every image. */
  lemma TopicReachesPrompt(filename: string, extracted: string, prompt: string)
    ensures Contains(FullPrompt(prompt, Backend.Upload(filename, extracted).context.topic), Backend.Topic(filename))
  {
  }
}

=== FILE: js_text.dfy ===
/** Browser-side text: JavaScript strings are sequences of UTF-16 code units,
    and `length`, indexing, `trim`, `includes` and regular expressions all work
    on those units. */
module JsText {
  import opened Common

  /** One UTF-16 code unit. */
  newtype Unit = x: int | 0 <= x < 0x1_0000

  /** A JavaScript string. */
  type Str = seq<Unit>

  /** The code unit of a character in the Basic Multilingual Plane; the model
      only writes such characters in its literals. Characters above the plane
      (never used in a literal here) map to the replacement character U+FFFD. */
  function UnitOf(c: char): Unit {
    if c as int < 0x1_0000 then c as int as Unit else 0xFFFD
  }

  /** A string literal of the component as its code units. */
  function Lit(s: string): (r: Str)
    ensures |r| == |s|
  {
    seq(|s|, i requires 0 <= i < |s| => UnitOf(s[i]))
  }

  lemma LitConcat(a: string, b: string)
    ensures Lit(a + b) == Lit(a) + Lit(b)
  {
  }

  lemma LitSlice(s: string, i: nat, j: nat)
    requires i <= j <= |s|
    ensures Lit(s)[i..j] == Lit(s[i..j])
  {
  }

  /** A character of the plane that a literal lacks has its unit missing from the literal's units. */
  lemma LitExcludes(s: string, c: char)
    requires c !in s && c as int < 0xFFFD
    ensures UnitOf(c) !in Lit(s)
  {
    forall i | 0 <= i < |s| ensures Lit(s)[i] != UnitOf(c) {
      assert s[i] != c;
    }
  }

  /** ECMAScript LineTerminator: LF, CR, LINE SEPARATOR, PARAGRAPH SEPARATOR.
      These are the units that `.` in a regular expression does not match. */
  predicate IsLineTerminator(u: Unit) {
    u == 0x0A || u == 0x0D || u == 0x2028 || u == 0x2029
  }

  /** ECMAScript WhiteSpace (TAB, VT, FF, SPACE, NBSP, ZWNBSP and the space
      separators of category Zs) together with LineTerminator: what
      `String.prototype.trim` removes. */
  predicate IsJsWhitespace(u: Unit) {
    || u == 0x09 || u == 0x0B || u == 0x0C || u == 0x20 || u == 0xA0 || u == 0xFEFF
    || u == 0x1680 || (0x2000 <= u <= 0x200A) || u == 0x202F || u == 0x205F || u == 0x3000
    || IsLineTerminator(u)
  }

  /** `s.trim()`. */
  function JsTrim(s: Str): (r: Str)
    ensures IsTrimOf(r, s, IsJsWhitespace)
  {
    Trim(s, IsJsWhitespace)
  }

  /** `!s.trim()`: the action is empty or whitespace only. */
  predicate IsBlank(s: Str) {
    JsTrim(s) == []
  }

  lemma BlankIff(s: Str)
    ensures IsBlank(s) <==> forall k :: 0 <= k < |s| ==> IsJsWhitespace(s[k])
  {
    TrimEmptyIff(s, IsJsWhitespace);
  }

  /** ASCII lower-casing of one unit. */
  function Lower(u: Unit): (r: Unit)
    ensures 0x41 <= u <= 0x5A ==> r == u + 0x20
    ensures !(0x41 <= u <= 0x5A) ==> r == u
  {
    if 0x41 <= u <= 0x5A then u + 0x20 else u
  }

  /** `s.toLowerCase()` restricted to ASCII letters; it keeps the length and
      each unit's position. */
  function LowerStr(s: Str): (r: Str)
    ensures |r| == |s|
    ensures forall k :: 0 <= k < |s| ==> r[k] == Lower(s[k])
  {
    seq(|s|, k requires 0 <= k < |s| => Lower(s[k]))
  }

  /** Lower-casing distributes over slices. */
  lemma LowerSlice(s: Str, i: nat, j: nat)
    requires i <= j <= |s|
    ensures LowerStr(s[i..j]) == LowerStr(s)[i..j]
  {
  }
}

=== FILE: py_text.dfy ===
/** The Python string operations the server relies on, over Dafny `string`
    (a sequence of code points, as a Python `str` is). */
module PyText {
  import opened Common

  /** `c.isspace()`: the characters `str.strip()` removes. */
  predicate IsPyWhitespace(c: char) {
    || ('\t' <= c <= '\r') || ('\U{1C}' <= c <= '\U{1F}') || c == ' '
    || c == '\U{85}' || c == '\U{A0}' || c == '\U{1680}' || ('\U{2000}' <= c <= '\U{200A}')
    || c == '\U{2028}' || c == '\U{2029}' || c == '\U{202F}' || c == '\U{205F}' || c == '\U{3000}'
  }

  /** `s.strip()`. */
  function Strip(s: string): (r: string)
    ensures IsTrimOf(r, s, IsPyWhitespace)
  {
    Trim(s, IsPyWhitespace)
  }

  /** `s.strip()` is falsy exactly when `s` holds only whitespace. */
  lemma StripEmptyIff(s: string)
    ensures Strip(s) == [] <==> forall k :: 0 <= k < |s| ==> IsPyWhitespace(s[k])
  {
    TrimEmptyIff(s, IsPyWhitespace);
  }

  /** ASCII lower-casing of one character. */
  function LowerChar(c: char): (r: char)
    ensures 'A' <= c <= 'Z' ==> r as int == c as int + 32
    ensures !('A' <= c <= 'Z') ==> r == c
  {
    if 'A' <= c <= 'Z' then (c as int + 32) as char else c
  }

  /** `s.lower()`, restricted to ASCII letters. */
  function Lower(s: string): (r: string)
    ensures |r| == |s| && forall k :: 0 <= k < |s| ==> r[k] == LowerChar(s[k])
  {
    seq(|s|, k requires 0 <= k < |s| => LowerChar(s[k]))
  }

  /** `s.endswith(p)`. */
  predicate EndsWith(s: string, p: string) {
    |p| <= |s| && s[|s| - |p|..] == p
  }

  /** `s[:n]` for `n >= 0`. */
  function Take<T>(s: seq<T>, n: nat): (r: seq<T>)
    ensures |r| == if |s| < n then |s| else n
    ensures IsPrefix(r, s)
  {
    if |s| <= n then s else s[..n]
  }

  /** `s[-n:]` for `n > 0`: the last `n` elements, or all of them. */
  function TakeLast<T>(s: seq<T>, n: nat): (r: seq<T>)
    requires n > 0
    ensures |r| == if |s| < n then |s| else n
    ensures r == s[|s| - |r|..]
  {
    if |s| <= n then s else s[|s| - n..]
  }

  /** `sep.join(xs)`. */
  function Join(sep: string, xs: seq<string>): (r: string)
    ensures xs == [] ==> r == []
    ensures |xs| == 1 ==> r == xs[0]
    ensures |xs| > 0 ==> IsPrefix(xs[0], r)
    ensures |xs| > 0 ==> |xs[|xs| - 1]| <= |r| && r[|r| - |xs[|xs| - 1]|..] == xs[|xs| - 1]
    ensures |xs| > 0 ==> |r| >= (|xs| - 1) * |sep|
  {
    if |xs| == 0 then [] else if |xs| == 1 then xs[0] else xs[0] + sep + Join(sep, xs[1..])
  }

  /** `s.replace(old, new)`: occurrences of `old` found scanning left to right,
      each resuming after the previous one, are replaced; an empty `old`
      inserts `new` before every character and at the end. */
  function Replace(s: string, pat: string, rep: string): (r: string)
    ensures |pat| > 0 && |rep| == |pat| ==> |r| == |s|
    ensures |pat| > 0 && |rep| <= |pat| ==> |r| <= |s|
    ensures |pat| > 0 && |rep| >= |pat| ==> |r| >= |s|
    ensures |pat| == 0 ==> |r| == |s| + (|s| + 1) * |rep|
    decreases |s|
  {
    if |pat| == 0 then
      if |s| == 0 then rep else rep + [s[0]] + Replace(s[1..], pat, rep)
    else if |s| < |pat| then s
    else if s[..|pat|] == pat then rep + Replace(s[|pat|..], pat, rep)
    else [s[0]] + Replace(s[1..], pat, rep)
  }

  /** A string in which `pat` does not occur is left as it is. */
  lemma {:induction false} ReplaceAbsent(s: string, pat: string, rep: string)
    requires |pat| > 0 && !Contains(s, pat)
    ensures Replace(s, pat, rep) == s
    decreases |s|
  {
    if |s| >= |pat| {
      assert s[..|pat|] != pat by { assert !OccursAt(s, pat, 0); }
      assert !Contains(s[1..], pat) by {
        forall k: nat | k <= |s[1..]| && OccursAt(s[1..], pat, k)
          ensures false
        {
          assert s[1..][k..k + |pat|] == s[k + 1..k + 1 + |pat|];
          assert OccursAt(s, pat, k + 1);
        }
      }
      ReplaceAbsent(s[1..], pat, rep);
    }
  }

  /** Replacing one character by one character maps the string pointwise. */
  lemma {:induction false} ReplaceChar(s: string, c: char, d: char)
    ensures var r := Replace(s, [c], [d]);
      |r| == |s| && forall k :: 0 <= k < |s| ==> r[k] == if s[k] == c then d else s[k]
    decreases |s|
  {
    if |s| > 0 {
      ReplaceChar(s[1..], c, d);
      assert s[..1] == [c] <==> s[0] == c;
    }
  }

  /** Replacing a character by a string that does not hold it leaves none of it. */
  lemma {:induction false} ReplaceCharGone(s: string, c: char, rep: string)
    requires c !in rep
    ensures c !in Replace(s, [c], rep)
    decreases |s|
  {
    if |s| > 0 {
      ReplaceCharGone(s[1..], c, rep);
      assert s[..1] == [c] <==> s[0] == c;
    }
  }

  /** The encoding of spaces as `%20` and its decoding, for text without `%`. */
  const PERCENT_SPACE: string := "%20"

  /** Decoding `%20` undoes encoding spaces, provided the text held no `%`
      of its own. */
  lemma {:induction false} SpaceEscapeRoundTrip(s: string)
    requires '%' !in s
    ensures Replace(Replace(s, " ", PERCENT_SPACE), PERCENT_SPACE, " ") == s
    decreases |s|
  {
    if |s| > 0 {
      var e := Replace(s, " ", PERCENT_SPACE);
      SpaceEscapeRoundTrip(s[1..]);
      var tail := Replace(s[1..], " ", PERCENT_SPACE);
      if s[0] == ' ' {
        assert s[..1] == " ";
        assert e == PERCENT_SPACE + tail;
        assert e[..3] == PERCENT_SPACE && e[3..] == tail;
      } else {
        assert s[..1] != " ";
        assert e == [s[0]] + tail;
        assert e[1..] == tail;
        if |e| >= 3 {
          assert e[..3] != PERCENT_SPACE by { assert e[0] == s[0] != '%'; }
        }
      }
    }
  }
}

=== FILE: reply.dfy ===
/** Post-processing of a `/simulate` reply in the browser: removal of role
    tokens, trimming, and the status derived from the cleaned text
    (src/components/SimulationInterface.jsx, lines 245-261). */
module Reply {
  import opened Common
  import opened JsText
  import opened Tones

  /** The status shown in the HUD. */
  datatype Status = Idle | Active | Safe | Critical

  const TRAINER: Str := Lit("Trainer:")
  const GAME_MASTER: Str := Lit("Game Master:")
  const AI_TOKEN: Str := Lit("AI:")
  const COLON: Unit := 0x3A

  /** `s` starts with `tok`, letter case ignored. */
  predicate StartsWithToken(s: Str, tok: Str) {
    |tok| <= |s| && LowerStr(s[..|tok|]) == LowerStr(tok)
  }

  /** The length of the alternative of `/Trainer:|Game Master:|AI:/gi` that
      matches at the start of `s`, tried in source order, or 0 when none does. */
  function TokenLen(s: Str): (n: nat)
    ensures n <= |s|
    ensures n != 0 ==> s[n - 1] == COLON
    ensures n == 0 <==> !StartsWithToken(s, TRAINER) && !StartsWithToken(s, GAME_MASTER) && !StartsWithToken(s, AI_TOKEN)
  {
    if StartsWithToken(s, TRAINER) then
      assert LowerStr(s[..|TRAINER|])[|TRAINER| - 1] == COLON;
      |TRAINER|
    else if StartsWithToken(s, GAME_MASTER) then
      assert LowerStr(s[..|GAME_MASTER|])[|GAME_MASTER| - 1] == COLON;
      |GAME_MASTER|
    else if StartsWithToken(s, AI_TOKEN) then
      assert LowerStr(s[..|AI_TOKEN|])[|AI_TOKEN| - 1] == COLON;
      |AI_TOKEN|
    else 0
  }

  /** `text.replace(/Trainer:|Game Master:|AI:/gi, '')`: scanning left to
      right, a token matched at the current position is skipped and scanning
      resumes right after it; any other unit is kept. */
  function StripRoleTokens(s: Str): (r: Str)
    ensures |r| <= |s|
    ensures |r| < |s| ==> COLON in s
    decreases |s|
  {
    if |s| == 0 then []
    else
      var n := TokenLen(s);
      if n > 0 then StripRoleTokens(s[n..]) else [s[0]] + StripRoleTokens(s[1..])
  }

  /** Text without any colon holds no role token, and the pass returns it unchanged. */
  lemma {:induction false} StripWithoutColon(s: Str)
    requires forall m :: 0 <= m < |s| ==> s[m] != COLON
    ensures StripRoleTokens(s) == s
    decreases |s|
  {
    if |s| > 0 {
      StripWithoutColon(s[1..]);
    }
  }

  /** A role token at the very start, in any letter case, is removed. */
  lemma LeadingTokenRemoved(s: Str, tok: Str)
    requires tok in [TRAINER, GAME_MASTER, AI_TOKEN]
    requires StartsWithToken(s, tok)
    ensures StripRoleTokens(s) == StripRoleTokens(s[|tok|..])
  {
    if tok == GAME_MASTER {
      assert !StartsWithToken(s, TRAINER) by {
        assert LowerStr(s[..|TRAINER|])[0] == LowerStr(s[..|GAME_MASTER|])[0];
      }
    } else if tok == AI_TOKEN {
      assert !StartsWithToken(s, TRAINER) && !StartsWithToken(s, GAME_MASTER) by {
        if |s| >= |TRAINER| {
          assert LowerStr(s[..|TRAINER|])[0] == LowerStr(s[..|AI_TOKEN|])[0];
        }
        if |s| >= |GAME_MASTER| {
          assert LowerStr(s[..|GAME_MASTER|])[0] == LowerStr(s[..|AI_TOKEN|])[0];
        }
      }
    }
  }

  /** Only a colon lower-cases to a colon. */
  lemma LowerColon(u: Unit)
    ensures Lower(u) == COLON <==> u == COLON
  {
  }

  /** Each role token, lower-cased, ends in its only colon. */
  lemma TokenShape(tok: Str)
    requires tok in [TRAINER, GAME_MASTER, AI_TOKEN]
    ensures |tok| > 0 && LowerStr(tok)[|tok| - 1] == COLON
    ensures forall m :: 0 <= m < |tok| - 1 ==> LowerStr(tok)[m] != COLON
  {
  }

  /** No role token ends with another one, letter case ignored: where the
      shorter one would begin inside the longer one, their letters differ. */
  lemma TokenNotSuffix(short: Str, long: Str)
    requires short in [TRAINER, GAME_MASTER, AI_TOKEN] && long in [TRAINER, GAME_MASTER, AI_TOKEN]
    requires |short| < |long|
    ensures LowerStr(long)[|long| - |short|] != LowerStr(short)[0]
  {
  }

  /** A text that starts with colon-free units and then a role token, in any
      letter case, holds no token at its start: a token match ends at the
      first colon, which is the colon of that later token, and no token ends
      with another. */
  lemma NoTokenBeforeToken(x: Str, t: Str, y: Str, tok: Str)
    requires tok in [TRAINER, GAME_MASTER, AI_TOKEN]
    requires |t| == |tok| && LowerStr(t) == LowerStr(tok)
    requires |x| > 0 && forall m :: 0 <= m < |x| ==> x[m] != COLON
    ensures TokenLen(x + t + y) == 0
  {
    var s := x + t + y;
    forall other: Str | other in [TRAINER, GAME_MASTER, AI_TOKEN]
      ensures !StartsWithToken(s, other)
    {
      if StartsWithToken(s, other) {
        TokenMatchEndsAtToken(x, t, y, tok, other);
        TokenNotSuffix(tok, other);
      }
    }
  }

  /** A token matched at the start of `x + t + y` ends exactly where the
      token `t` ends. */
  lemma TokenMatchEndsAtToken(x: Str, t: Str, y: Str, tok: Str, other: Str)
    requires tok in [TRAINER, GAME_MASTER, AI_TOKEN] && other in [TRAINER, GAME_MASTER, AI_TOKEN]
    requires |t| == |tok| && LowerStr(t) == LowerStr(tok)
    requires forall m :: 0 <= m < |x| ==> x[m] != COLON
    requires StartsWithToken(x + t + y, other)
    ensures |other| == |x| + |t|
    ensures LowerStr(other)[|x|] == LowerStr(tok)[0]
  {
    var s := x + t + y;
    var k := |other|;
    TokenShape(tok);
    TokenShape(other);
    forall m | 0 <= m < k ensures Lower(s[m]) == LowerStr(other)[m] {
      assert LowerStr(s[..k])[m] == Lower(s[m]);
    }
    forall j | 0 <= j < |t| ensures s[|x| + j] == t[j] && Lower(t[j]) == LowerStr(tok)[j] {
      assert LowerStr(t)[j] == Lower(t[j]);
    }
    assert Lower(s[|x| + |t| - 1]) == COLON;
    assert Lower(s[k - 1]) == COLON;
  }

  /** A role token that follows colon-free text, in any letter case, is
      removed and the text before it kept. */
  lemma {:induction false} TokenAfterPlainTextRemoved(x: Str, t: Str, y: Str, tok: Str)
    requires tok in [TRAINER, GAME_MASTER, AI_TOKEN]
    requires |t| == |tok| && LowerStr(t) == LowerStr(tok)
    requires forall m :: 0 <= m < |x| ==> x[m] != COLON
    ensures StripRoleTokens(x + t + y) == x + StripRoleTokens(y)
    decreases |x|
  {
    if |x| == 0 {
      assert x + t + y == t + y && x + StripRoleTokens(y) == StripRoleTokens(y);
      LeadingCaseRemoved(t, y, tok);
    } else {
      var x' := x[1..];
      assert forall m :: 0 <= m < |x'| ==> x'[m] == x[m + 1];
      calc {
        StripRoleTokens(x + t + y);
        { NoTokenBeforeToken(x, t, y, tok); FirstUnitKept(x, t, y); }
        [x[0]] + StripRoleTokens(x' + t + y);
        { TokenAfterPlainTextRemoved(x', t, y, tok); }
        [x[0]] + (x' + StripRoleTokens(y));
        { ConsRest(x, StripRoleTokens(y)); }
        x + StripRoleTokens(y);
      }
    }
  }

  /** A first unit that starts no token is kept. */
  lemma FirstUnitKept(x: Str, t: Str, y: Str)
    requires |x| > 0 && TokenLen(x + t + y) == 0
    ensures StripRoleTokens(x + t + y) == [x[0]] + StripRoleTokens(x[1..] + t + y)
  {
    var s := x + t + y;
    KeptUnit(s);
    assert s[1..] == x[1..] + t + y;
  }

  lemma ConsRest(x: Str, rest: Str)
    requires |x| > 0
    ensures [x[0]] + (x[1..] + rest) == x + rest
  {
    assert x == [x[0]] + x[1..];
  }

  /** A unit that starts no token is kept, and the pass goes on after it. */
  lemma KeptUnit(s: Str)
    requires |s| > 0 && TokenLen(s) == 0
    ensures StripRoleTokens(s) == [s[0]] + StripRoleTokens(s[1..])
  {
  }

  /** A token in any letter case at the start is removed. */
  lemma LeadingCaseRemoved(t: Str, y: Str, tok: Str)
    requires tok in [TRAINER, GAME_MASTER, AI_TOKEN]
    requires |t| == |tok| && LowerStr(t) == LowerStr(tok)
    ensures StripRoleTokens(t + y) == StripRoleTokens(y)
  {
    var s := t + y;
    assert s[..|tok|] == t && s[|tok|..] == y;
    LeadingTokenRemoved(s, tok);
  }

  /** Lower-casing twice is lower-casing once. */
  lemma LowerIdempotent(s: Str)
    ensures LowerStr(LowerStr(s)) == LowerStr(s)
  {
  }

  /** Tokens are found at the start of a text exactly when they are found at
      the start of its lower-cased form. */
  lemma TokenLenLower(s: Str)
    ensures TokenLen(LowerStr(s)) == TokenLen(s)
  {
    forall tok: Str | tok in [TRAINER, GAME_MASTER, AI_TOKEN]
      ensures StartsWithToken(LowerStr(s), tok) == StartsWithToken(s, tok)
    {
      if |tok| <= |s| {
        LowerSlice(s, 0, |tok|);
        assert s[..|tok|] == s[0..|tok|];
        LowerIdempotent(s[..|tok|]);
      }
    }
  }

  /** Lower-casing works unit by unit. */
  lemma LowerCons(u: Unit, t: Str)
    ensures LowerStr([u] + t) == [Lower(u)] + LowerStr(t)
  {
  }

  lemma LowerSuffix(s: Str, n: nat)
    requires n <= |s|
    ensures LowerStr(s)[n..] == LowerStr(s[n..])
  {
  }

  /** Because the match ignores letter case, removing tokens and lower-casing commute. */
  lemma {:induction false} StripCommutesWithLower(s: Str)
    ensures LowerStr(StripRoleTokens(s)) == StripRoleTokens(LowerStr(s))
    decreases |s|
  {
    if |s| > 0 {
      var l := LowerStr(s);
      TokenLenLower(s);
      var n := TokenLen(s);
      if n > 0 {
        calc {
          StripRoleTokens(l);
          StripRoleTokens(l[n..]);
          { LowerSuffix(s, n); }
          StripRoleTokens(LowerStr(s[n..]));
          { StripCommutesWithLower(s[n..]); }
          LowerStr(StripRoleTokens(s[n..]));
          LowerStr(StripRoleTokens(s));
        }
      } else {
        calc {
          StripRoleTokens(l);
          [l[0]] + StripRoleTokens(l[1..]);
          { LowerSuffix(s, 1); }
          [Lower(s[0])] + StripRoleTokens(LowerStr(s[1..]));
          { StripCommutesWithLower(s[1..]); }
          [Lower(s[0])] + LowerStr(StripRoleTokens(s[1..]));
          { LowerCons(s[0], StripRoleTokens(s[1..])); }
          LowerStr([s[0]] + StripRoleTokens(s[1..]));
          LowerStr(StripRoleTokens(s));
        }
      }
    }
  }

  /** Lines 245-247: the `rawText` the component stores, tokens removed and
      then trimmed. */
  function Clean(raw: Str): (r: Str)
    ensures IsTrimOf(r, StripRoleTokens(raw), IsJsWhitespace)
    ensures |r| <= |raw|
  {
    JsTrim(StripRoleTokens(raw))
  }

  const FAIL: Str := Lit("fail")
  const CROSS_MARK: Str := Lit("❌")
  const CORRECT: Str := Lit("correct")
  const CHECK_MARK: Str := Lit("✅")

  /** The test of line 251: lower-cased text contains `fail`, or the text contains the cross mark. */
  predicate FailCue(t: Str) {
    Contains(LowerStr(t), FAIL) || Contains(t, CROSS_MARK)
  }

  /** The test of line 256: lower-cased text contains `correct`, or the text contains the check mark. */
  predicate SuccessCue(t: Str) {
    Contains(LowerStr(t), CORRECT) || Contains(t, CHECK_MARK)
  }

  /** The status a reply gives, and the tones it asks for, in the order asked. */
  datatype Verdict = Verdict(status: Status, tones: seq<Tone>)

  /** Lines 249-259: the status starts as ACTIVE; the failure test may set
      CRITICAL, and the success test, run after it, may overwrite that with
      SAFE. Each test that fires asks for its tone when sound is on. */
  function Classify(text: Str, soundOn: bool): (v: Verdict)
    ensures v.status == Safe <==> SuccessCue(text)
    ensures v.status == Critical <==> FailCue(text) && !SuccessCue(text)
    ensures v.status == Active <==> !FailCue(text) && !SuccessCue(text)
    ensures ErrorTone in v.tones <==> soundOn && FailCue(text)
    ensures SuccessTone in v.tones <==> soundOn && SuccessCue(text)
    ensures TypeTone !in v.tones
    ensures |v.tones| == (if soundOn && FailCue(text) then 1 else 0) + (if soundOn && SuccessCue(text) then 1 else 0)
    ensures |v.tones| == 2 ==> v.tones == [ErrorTone, SuccessTone]
  {
    var afterFail :=
      if FailCue(text) then Verdict(Critical, if soundOn then [ErrorTone] else [])
      else Verdict(Active, []);
    if SuccessCue(text) then
      Verdict(Safe, afterFail.tones + if soundOn then [SuccessTone] else [])
    else afterFail
  }

  /** The pass is single: removing a token can bring the halves of another
      together, and that one stays. */
  lemma StripIsSinglePass()
    ensures StripRoleTokens(Lit("AAI:I:")) == Lit("AI:")
    ensures StartsWithToken(Lit("AI:"), AI_TOKEN)
  {
    var s := Lit("AAI:I:");
    assert LowerStr(s[..|AI_TOKEN|])[1] != LowerStr(AI_TOKEN)[1];
    assert TokenLen(s) == 0;
    assert s[1..] == Lit("AI:I:");
    assert StartsWithToken(s[1..], AI_TOKEN) by {
      assert LowerStr(s[1..][..3]) == LowerStr(AI_TOKEN);
    }
    LeadingTokenRemoved(s[1..], AI_TOKEN);
    assert s[1..][3..] == Lit("I:");
    StripWithoutColon(Lit("I"));
    assert StripRoleTokens(Lit("I:")) == Lit("I:") by {
      assert TokenLen(Lit("I:")) == 0;
      assert Lit("I:")[1..] == [COLON];
      assert TokenLen([COLON]) == 0;
    }
    assert [s[0]] + Lit("I:") == Lit("AI:");
  }

  /** A reply that opens with a role token and a space, in any letter case,
      cleans to the text after them when that text holds no colon and has no
      whitespace at its ends. */
  lemma {:induction false} PrefixedReplyCleaned(tok: Str, s: Str, t: Str)
    requires tok in [TRAINER, GAME_MASTER, AI_TOKEN]
    requires StartsWithToken(s, tok) && |s| == |tok| + 1 + |t| && s[|tok| + 1..] == t
    requires IsJsWhitespace(s[|tok|])
    requires forall m :: 0 <= m < |t| ==> t[m] != COLON
    requires t == [] || (!IsJsWhitespace(t[0]) && !IsJsWhitespace(t[|t| - 1]))
    ensures Clean(s) == t
  {
    var rest := s[|tok|..];
    LeadingTokenRemoved(s, tok);
    assert rest[1..] == t;
    StripWithoutColon(rest);
    assert TrimCut(t, rest, IsJsWhitespace, 1, |rest|) by {
      assert rest[0] == s[|tok|];
      if t != [] {
        assert rest[1] == t[0] && rest[|rest| - 1] == t[|t| - 1];
      }
    }
    TrimUnique(rest, t, IsJsWhitespace);
  }

  /** The reply `Trainer: You failed the check ❌` is cleaned to
      `You failed the check ❌` and classified CRITICAL. */
  lemma TrainerReplyExample(soundOn: bool)
    ensures Clean(Lit("Trainer: You failed the check ❌")) == Lit("You failed the check ❌")
    ensures Classify(Lit("You failed the check ❌"), soundOn).status == Critical
  {
    var raw := "Trainer: You failed the check ❌";
    var text := "You failed the check ❌";
    assert raw == "Trainer:" + " " + text;
    LitConcat("Trainer:" + " ", text);
    LitConcat("Trainer:", " ");
    assert Lit(raw)[..|TRAINER|] == TRAINER;
    LitExcludes(text, ':');
    PrefixedReplyCleaned(TRAINER, Lit(raw), Lit(text));
    FailedCheckIsCritical(soundOn);
  }

  lemma FailedCheckIsCritical(soundOn: bool)
    ensures Classify(Lit("You failed the check ❌"), soundOn).status == Critical
  {
    var s := "You failed the check ❌";
    var text := Lit(s);
    LitSlice(s, 4, 8);
    assert s[4..8] == "fail";
    LowerSlice(text, 4, 8);
    assert LowerStr(FAIL) == FAIL;
    assert OccursAt(LowerStr(text), FAIL, 4);
    assert !SuccessCue(text) by {
      LitExcludes(s, 'r');
      LitExcludes(s, 'R');
      LitExcludes(s, '✅');
      if Contains(LowerStr(text), CORRECT) {
        ContainsElement(LowerStr(text), CORRECT, 2);
      }
      if Contains(text, CHECK_MARK) {
        ContainsElement(text, CHECK_MARK, 0);
      }
    }
  }

  /** As written, the success test overwrites the failure test, and `correct`
      also matches inside `incorrect`: such a reply is SAFE. */
  lemma IncorrectReplyIsSafe(soundOn: bool)
    ensures FailCue(Lit("Incorrect. You fail."))
    ensures Classify(Lit("Incorrect. You fail."), soundOn).status == Safe
  {
    var text := Lit("Incorrect. You fail.");
    assert text[2..9] == CORRECT;
    LowerSlice(text, 2, 9);
    assert LowerStr(CORRECT) == CORRECT;
    assert OccursAt(LowerStr(text), CORRECT, 2);
    assert OccursAt(LowerStr(text), FAIL, 15);
  }
}

=== FILE: reveal.dfy ===
/** The typewriter effect (src/components/SimulationInterface.jsx, lines
    282-300) as a tick-driven state machine: each firing of the 10 ms
    interval is one `Tick`. */
module Reveal {
  import opened JsText

  /** One typewriter job: the text being revealed, the closure's counter `i`,
      the displayed text, and whether the job's interval is still set. */
  datatype Job = Job(full: Str, next: nat, shown: Str, running: bool)

  /** The job invariant: the displayed text is the prefix of the full text
      of the counter's length, and a stopped job has revealed everything. */
  predicate Valid(j: Job) {
    && j.next <= |j.full|
    && j.shown == j.full[..j.next]
    && (!j.running ==> j.next == |j.full|)
  }

  /** Lines 283-288: a new job clears the displayed text, resets the counter
      and sets a fresh interval. */
  function Start(full: Str): (j: Job)
    ensures Valid(j) && j.running
    ensures j.full == full && j.shown == []
  {
    Job(full, 0, [], true)
  }

  /** What one tick does: the job afterwards, and whether it asked for a
      typing tone. */
  datatype Step = Step(job: Job, tone: bool)

  /** Lines 288-297: while units remain, append `full[i]`, ask for a tone
      when sound is on and `i % 4 == 0`, and advance; otherwise clear the
      interval. A cleared interval never fires again. */
  function Tick(j: Job, soundOn: bool): (r: Step)
    ensures Valid(j) ==> Valid(r.job)
    ensures r.job.full == j.full
    ensures |j.shown| <= |r.job.shown| <= |j.shown| + 1
    ensures r.job.shown[..|j.shown|] == j.shown
    ensures r.tone <==> soundOn && j.running && j.next < |j.full| && j.next % 4 == 0
    ensures Valid(j) && j.running && j.next < |j.full| ==> r.job.shown == j.full[..|j.shown| + 1]
    ensures Valid(j) && j.running && j.next == |j.full| ==> r.job.shown == j.full && !r.job.running
  {
    if !j.running then Step(j, false)
    else if j.next < |j.full| then
      Step(Job(j.full, j.next + 1, j.shown + [j.full[j.next]], true), soundOn && j.next % 4 == 0)
    else
      Step(j.(running := false), false)
  }

  /** What JavaScript's `+` appends for `full[i]` once `i` is past the end:
      `undefined`, spelled out. */
  const UNDEFINED: Str := Lit("undefined")

  /** The tick as written when React runs the queued updater `p => p +
      fullScenarioText[i]` (line 290) only after the interval callback has
      returned, that is after the `i++` of line 292: the updater reads the
      next unit, or `undefined` on the last one. `Tick` is the reveal the
      effect evidently intends, reading `i` as it was when the update was
      queued. */
  function DeferredTick(j: Job): (r: Job)
    ensures r.full == j.full && r.next <= j.next + 1
    ensures |j.shown| <= |r.shown| && r.shown[..|j.shown|] == j.shown
    ensures j.running && j.next < |j.full| ==> |r.shown| > |j.shown| && r.next == j.next + 1
    ensures j.running && j.next + 1 < |j.full| ==> r.shown[|j.shown|] == j.full[j.next + 1]
  {
    if !j.running then j
    else if j.next < |j.full| then
      var unit := if j.next + 1 < |j.full| then [j.full[j.next + 1]] else UNDEFINED;
      Job(j.full, j.next + 1, j.shown + unit, true)
    else j.(running := false)
  }

  /** As written with a deferred updater, revealing `ab` first shows `b`,
      which is not a prefix of `ab`, and ends showing `bundefined`, while
      the intended `Tick` ends showing `ab` (`RevealFromStart`). */
  lemma DeferredRevealGarbles()
    ensures var t1 := DeferredTick(Start(Lit("ab")));
      && t1.shown == Lit("b") && !Valid(t1)
      && DeferredTick(DeferredTick(t1)).shown == Lit("bundefined")
      && !DeferredTick(DeferredTick(t1)).running
  {
    var ab := Lit("ab");
    var t1 := DeferredTick(Start(ab));
    assert t1.shown == [ab[1]] == Lit("b");
    assert t1.shown != ab[..1] by { assert ab[0] != ab[1]; }
    var t2 := DeferredTick(t1);
    assert t2.shown == Lit("b") + UNDEFINED;
    assert Lit("b") + UNDEFINED == Lit("bundefined") by {
      LitConcat("b", "undefined");
      assert "b" + "undefined" == "bundefined";
    }
  }

  /** `n` ticks in a row: the job afterwards and the number of typing tones. */
  datatype Run = Run(job: Job, tones: nat)

  function RunTicks(j: Job, n: nat, soundOn: bool): (r: Run)
    ensures r.job.full == j.full
    decreases n
  {
    if n == 0 then Run(j, 0)
    else
      var s := Tick(j, soundOn);
      var rest := RunTicks(s.job, n - 1, soundOn);
      Run(rest.job, rest.tones + if s.tone then 1 else 0)
  }

  /** The number of multiples of 4 in `[a, b)`. */
  function MultiplesOf4(a: nat, b: nat): nat
    decreases b - a
  {
    if a >= b then 0 else (if a % 4 == 0 then 1 else 0) + MultiplesOf4(a + 1, b)
  }

  lemma {:induction false} MultiplesOf4FromZero(n: nat)
    ensures MultiplesOf4(0, n) == (n + 3) / 4
  {
    if n > 0 {
      MultiplesOf4FromZero(n - 1);
      MultiplesOf4Last(0, n);
    }
  }

  lemma {:induction false} MultiplesOf4Last(a: nat, b: nat)
    requires a < b
    ensures MultiplesOf4(a, b) == MultiplesOf4(a, b - 1) + (if (b - 1) % 4 == 0 then 1 else 0)
    decreases b - a
  {
    if a < b - 1 {
      MultiplesOf4Last(a + 1, b);
    }
  }

  /** Within one job the displayed text only grows: after any number of
      ticks the earlier displayed text is still its prefix, and it stays a
      prefix of the full text. */
  lemma {:induction false} RevealMonotone(j: Job, n: nat, soundOn: bool)
    requires Valid(j)
    ensures Valid(RunTicks(j, n, soundOn).job)
    ensures |j.shown| <= |RunTicks(j, n, soundOn).job.shown|
    ensures RunTicks(j, n, soundOn).job.shown[..|j.shown|] == j.shown
    decreases n
  {
    if n > 0 {
      var s := Tick(j, soundOn);
      RevealMonotone(s.job, n - 1, soundOn);
      var after := RunTicks(s.job, n - 1, soundOn).job.shown;
      assert after[..|j.shown|] == after[..|s.job.shown|][..|j.shown|];
    }
  }

  /** A running job with `k` units still to reveal finishes after `k + 1`
      ticks with the whole text displayed and its interval cleared, having
      asked for one typing tone per multiple of 4 it passed. */
  lemma {:induction false} RevealCompletes(j: Job, soundOn: bool)
    requires Valid(j) && j.running
    ensures var r := RunTicks(j, |j.full| - j.next + 1, soundOn);
      && r.job.shown == j.full
      && !r.job.running
      && r.tones == (if soundOn then MultiplesOf4(j.next, |j.full|) else 0)
    decreases |j.full| - j.next
  {
    var s := Tick(j, soundOn);
    if j.next < |j.full| {
      RevealCompletes(s.job, soundOn);
      assert MultiplesOf4(j.next, |j.full|) == (if j.next % 4 == 0 then 1 else 0) + MultiplesOf4(j.next + 1, |j.full|);
    } else {
      assert RunTicks(s.job, 0, soundOn) == Run(s.job, 0);
    }
  }

  /** A fresh job over a text of `n` units displays the whole text after
      `n + 1` ticks, having asked for ⌈n/4⌉ typing tones when sound is on
      and none when it is off. */
  lemma RevealFromStart(full: Str, soundOn: bool)
    ensures var r := RunTicks(Start(full), |full| + 1, soundOn);
      && r.job.shown == full
      && !r.job.running
      && r.tones == (if soundOn then (|full| + 3) / 4 else 0)
  {
    RevealCompletes(Start(full), soundOn);
    MultiplesOf4FromZero(|full|);
  }

  /** Once stopped, a job never changes again. */
  lemma {:induction false} StoppedJobIsInert(j: Job, n: nat, soundOn: bool)
    requires !j.running
    ensures RunTicks(j, n, soundOn) == Run(j, 0)
    decreases n
  {
    if n > 0 {
      StoppedJobIsInert(j, n - 1, soundOn);
    }
  }
}

=== FILE: session.dfy ===
/** The session engine of the simulation screen
    (src/components/SimulationInterface.jsx, lines 210-335): `sendMove`, the
    start effect, the typewriter effect, the voice-input flag and the status
    classes, as pure steps over an immutable session record. */
module Session {
  import opened Common
  import opened JsText
  import opened Tones
  import opened Reply
  import Reveal

  /** The browser only ever appends user turns. */
  datatype Role = User

  datatype Turn = Turn(role: Role, content: Str)

  /** The options of the language selector. */
  datatype Language = English | Chinese | Spanish | French

  /** One `/simulate` call: the body it posts, and the `soundOn` that the
      `sendMove` closure issuing it captured (its dependencies, line 271),
      which is what the handling of its reply reads. */
  datatype Request = Request(action: Str, history: seq<Turn>, language: Language, soundOn: bool)

  /** The component's state. `job.full` is `fullScenarioText` and
      `job.shown` is `displayedText`. */
  datatype Session = Session(
    history: seq<Turn>,
    status: Status,
    job: Reveal.Job,
    input: Str,
    loading: bool,
    soundOn: bool,
    language: Language,
    listening: bool)

  const START_ACTION: Str := Lit("START SIMULATION")
  const CONNECTION_ERROR: Str := Lit("⚠️ **CONNECTION ERROR**: NEURAL LINK SEVERED.")

  /** Lines 211-219 and the first run of the typewriter effect. */
  function Initial(): (s: Session)
    ensures s.history == [] && s.status == Idle && Reveal.Valid(s.job) && !s.loading
    ensures s.soundOn && s.language == English && s.input == [] && !s.listening
    ensures s.job == Reveal.Start([]) && s.job.shown == [] && s.job.running
  {
    Session([], Idle, Reveal.Start([]), [], false, true, English, false)
  }

  /** The session and the `/simulate` request issued, if any. */
  datatype Sent = Sent(session: Session, request: Option<Request>)

  /** Lines 226-243, up to the request: a blank action returns before any
      state change and sends nothing; otherwise `loading` is set, a visible
      action is appended as a user turn, and the request carries the action,
      the (possibly extended) history and the language. There is no check of
      `loading` here. */
  function SendMove(s: Session, action: Str, hidden: bool): (r: Sent)
    ensures IsBlank(action) ==> r == Sent(s, None)
    ensures !IsBlank(action) ==>
      && r.request == Some(Request(action, r.session.history, s.language, s.soundOn))
      && r.session == s.(loading := true, history := r.session.history)
      && r.session.history == if hidden then s.history else s.history + [Turn(User, action)]
  {
    if IsBlank(action) then Sent(s, None)
    else
      var history := if hidden then s.history else s.history + [Turn(User, action)];
      Sent(s.(loading := true, history := history), Some(Request(action, history, s.language, s.soundOn)))
  }

  /** How the `/simulate` call ended: a response body `{response}`, or any
      exception while requesting or processing it. */
  datatype Outcome = Replied(response: Str) | Raised

  /** The session after the call settles, and the tones asked for. */
  datatype Settled = Settled(session: Session, tones: seq<Tone>)

  /** Setting `fullScenarioText`: the typewriter effect restarts only when the
      value actually changes. */
  function ShowText(job: Reveal.Job, text: Str): (j: Reveal.Job)
    ensures Reveal.Valid(job) ==> Reveal.Valid(j)
    ensures j.full == text
    ensures text != job.full ==> j.shown == [] && j.running
    ensures text == job.full ==> j == job
  {
    if text == job.full then job else Reveal.Start(text)
  }

  /** Lines 245-269, after the request: a reply is cleaned and classified,
      its tones gated on the `soundOn` of the call's closure rather than on
      the current one; an exception shows the connection sentinel as
      CRITICAL with no tone. On both paths the input is cleared and
      `loading` ends; the history is left as `SendMove` made it. */
  function Settle(s: Session, call: Request, outcome: Outcome): (r: Settled)
    ensures r.session.history == s.history
    ensures !r.session.loading && r.session.input == []
    ensures r.session.soundOn == s.soundOn && r.session.language == s.language
    ensures r.session == s.(status := r.session.status, job := r.session.job, input := [], loading := false)
    ensures outcome.Raised? ==>
      r.session.status == Critical && r.session.job.full == CONNECTION_ERROR && r.tones == []
    ensures r.session.job == ShowText(s.job, r.session.job.full)
    ensures outcome.Replied? ==>
      && r.session.job.full == Clean(outcome.response)
      && r.session.status == Classify(Clean(outcome.response), call.soundOn).status
      && r.tones == Classify(Clean(outcome.response), call.soundOn).tones
    ensures Reveal.Valid(s.job) ==> Reveal.Valid(r.session.job)
  {
    match outcome
    case Replied(response) =>
      var text := Clean(response);
      var v := Classify(text, call.soundOn);
      Settled(s.(status := v.status, job := ShowText(s.job, text), input := [], loading := false), v.tones)
    case Raised =>
      Settled(s.(status := Critical, job := ShowText(s.job, CONNECTION_ERROR), input := [], loading := false), [])
  }

  /** Lines 275-279: the start effect sends the hidden start action whenever
      it runs with an empty history; it is `sendMove(START_ACTION, true)`,
      see `StartEffectIsHiddenSend`. */
  function StartEffect(s: Session): (r: Sent)
    ensures r.request.Some? <==> |s.history| == 0
    ensures r.request.Some? ==> r.request.value == Request(START_ACTION, [], s.language, s.soundOn)
    ensures r.session.history == s.history
    ensures r.session.loading <==> s.loading || |s.history| == 0
  {
    if |s.history| == 0 then Sent(s.(loading := true), Some(Request(START_ACTION, [], s.language, s.soundOn)))
    else Sent(s, None)
  }

  /** The start action is never blank, so the effect is exactly a hidden
      `sendMove` of it. */
  lemma StartEffectIsHiddenSend(s: Session)
    requires |s.history| == 0
    ensures StartEffect(s) == SendMove(s, START_ACTION, true)
  {
    assert START_ACTION[0] == 0x53;
    assert !IsBlank(START_ACTION) by { BlankIff(START_ACTION); }
  }

  /** Line 310-315: the recognition locale; French falls back to `en-US`. */
  function Locale(l: Language): (tag: Str)
    ensures tag == Lit("zh-CN") <==> l == Chinese
    ensures tag == Lit("es-ES") <==> l == Spanish
    ensures tag == Lit("en-US") <==> l == English || l == French
  {
    assert Lit("zh-CN")[0] == UnitOf('z') && Lit("es-ES")[0] == UnitOf('e') && Lit("en-US")[1] == UnitOf('n');
    assert Lit("es-ES")[1] == UnitOf('s');
    match l
    case Chinese => Lit("zh-CN")
    case Spanish => Lit("es-ES")
    case _ => Lit("en-US")
  }

  /** Lines 332-335: the CSS classes of the HUD and of the scenario box. */
  function HudClass(st: Status): Str {
    match st
    case Critical => Lit("critical")
    case Safe => Lit("safe")
    case _ => []
  }

  function BoxClass(st: Status): Str {
    match st
    case Critical => Lit("border-red")
    case Safe => Lit("border-green")
    case _ => []
  }

  /** The HUD and the box always change together: both are plain exactly
      while the status is IDLE or ACTIVE, and each of the two live outcomes
      has a class of its own. */
  lemma StatusClassesAgree(st: Status)
    ensures HudClass(st) == [] <==> BoxClass(st) == []
    ensures HudClass(st) == [] <==> st == Idle || st == Active
    ensures HudClass(Critical) != HudClass(Safe) && BoxClass(Critical) != BoxClass(Safe)
  {
    assert HudClass(Critical)[0] != HudClass(Safe)[0];
    assert BoxClass(Critical)[7] != BoxClass(Safe)[7];
  }

  /** The platform's speech recognition, reduced to what reaches the
      component: no capability, and the recognizer's callbacks. `onstart`
      reads the `soundOn` that the `startListening` closure of the clicked
      render captured, carried here as `soundOn`. */
  datatype SpeechEvent =
    | Unsupported
    | RecognitionStarted(soundOn: bool)
    | RecognitionResult(transcript: Str)
    | RecognitionStopped     // `onerror` or `onend`

  /** Everything the user, the timers and the network can do to the screen. */
  datatype Event =
    | Edit(text: Str)
    | Execute
    | Tick
    | ToggleSound
    | ChooseLanguage(language: Language)
    | Resolve(call: Request, outcome: Outcome)
    | Speech(speech: SpeechEvent)

  /** One event's effect: the new session, the `/simulate` requests sent
      (including those of the start effect re-running), and the tones asked for. */
  datatype Out = Out(session: Session, requests: seq<Request>, tones: seq<Tone>)

  function RequestList(o: Option<Request>): seq<Request> {
    match o
    case Some(r) => [r]
    case None => []
  }

  /** The start effect runs after a render in which `history.length` or the
      identity of `sendMove` (which depends on history, language and sound)
      changed. */
  function WithStartEffect(s: Session, requests: seq<Request>, tones: seq<Tone>): Out {
    var e := StartEffect(s);
    Out(e.session, requests + RequestList(e.request), tones)
  }

  /** The EXECUTE button or the Enter key, both disabled while `loading`
      (lines 385-393): `sendMove` of the input; a visible action changes the
      history, so the start effect runs again and, the history being
      non-empty, sends nothing. */
  function ExecuteStep(s: Session): (o: Out)
    ensures s.loading || IsBlank(s.input) ==> o == Out(s, [], [])
    ensures !s.loading && !IsBlank(s.input) ==>
      && o.session == s.(loading := true, history := s.history + [Turn(User, s.input)])
      && o.requests == [Request(s.input, s.history + [Turn(User, s.input)], s.language, s.soundOn)]
      && o.tones == []
  {
    if s.loading then Out(s, [], [])
    else
      var r := SendMove(s, s.input, false);
      if r.session.history != s.history then WithStartEffect(r.session, RequestList(r.request), [])
      else Out(r.session, RequestList(r.request), [])
  }

  /** One interval tick of the typewriter effect (lines 289-298). */
  function TickStep(s: Session): (o: Out)
    ensures o.session == s.(job := o.session.job) && o.requests == []
    ensures o.session.job == Reveal.Tick(s.job, s.soundOn).job
    ensures |o.tones| <= 1 && (o.tones != [] <==> Reveal.Tick(s.job, s.soundOn).tone)
    ensures forall k :: 0 <= k < |o.tones| ==> o.tones[k] == TypeTone
  {
    var t := Reveal.Tick(s.job, s.soundOn);
    Out(s.(job := t.job), [], if t.tone then [TypeTone] else [])
  }

  /** The sound toggle: `soundOn` is a dependency of the typewriter effect,
      which restarts the reveal of the same text, and of `sendMove`, whose new
      identity re-runs the start effect. */
  function ToggleSoundStep(s: Session): (o: Out)
    ensures o.session.soundOn == !s.soundOn && o.session.history == s.history
    ensures o.session.job == Reveal.Start(s.job.full)
    ensures o.session == s.(soundOn := !s.soundOn, job := Reveal.Start(s.job.full), loading := s.loading || s.history == [])
    ensures o.requests == if s.history == [] then [Request(START_ACTION, [], s.language, !s.soundOn)] else []
    ensures o.tones == []
  {
    WithStartEffect(s.(soundOn := !s.soundOn, job := Reveal.Start(s.job.full)), [], [])
  }

  /** The language selector: a new language gives `sendMove` a new identity,
      which re-runs the start effect. */
  function LanguageStep(s: Session, l: Language): (o: Out)
    ensures o.session.language == l && o.session.history == s.history && o.session.job == s.job
    ensures o.requests == if s.history == [] && l != s.language then [Request(START_ACTION, [], l, s.soundOn)] else []
    ensures o.session.loading <==> s.loading || (s.history == [] && l != s.language)
    ensures o.session == s.(language := l, loading := o.session.loading)
    ensures o.tones == []
  {
    if l == s.language then Out(s, [], [])
    else WithStartEffect(s.(language := l), [], [])
  }

  /** The recognizer's callbacks (lines 302-328): starting beeps when the
      sound was on at the click, a result replaces the input, and every end
      clears `listening`. */
  function SpeechStep(s: Session, e: SpeechEvent): (o: Out)
    ensures o.session.history == s.history && o.session.job == s.job && o.requests == []
    ensures o.session.loading == s.loading && o.session.language == s.language
    ensures o.session.listening <==> e.RecognitionStarted? || (e.Unsupported? && s.listening)
    ensures o.session.input == if e.RecognitionResult? then e.transcript else s.input
    ensures o.tones == if e.RecognitionStarted? && e.soundOn then [TypeTone] else []
    ensures o.session == s.(listening := o.session.listening, input := o.session.input)
  {
    match e
    case Unsupported => Out(s, [], [])
    case RecognitionStarted(soundOn) => Out(s.(listening := true), [], if soundOn then [TypeTone] else [])
    case RecognitionResult(t) => Out(s.(input := t, listening := false), [], [])
    case RecognitionStopped => Out(s.(listening := false), [], [])
  }

  /** The `/simulate` call `call` settling. */
  function ResolveStep(s: Session, call: Request, outcome: Outcome): (o: Out)
    ensures o.requests == [] && o.session.history == s.history
    ensures o.session == Settle(s, call, outcome).session && o.tones == Settle(s, call, outcome).tones
  {
    var r := Settle(s, call, outcome);
    Out(r.session, [], r.tones)
  }

  /** One event: the reveal job stays valid, the history keeps its turns and
      gains at most one, and at most one request is sent. */
  function Step(s: Session, ev: Event): (o: Out)
    ensures Reveal.Valid(s.job) ==> Reveal.Valid(o.session.job)
    ensures IsPrefix(s.history, o.session.history) && |o.session.history| <= |s.history| + 1
    ensures |o.requests| <= 1
  {
    match ev
    case Edit(text) => Out(s.(input := text), [], [])
    case Execute => ExecuteStep(s)
    case Tick => TickStep(s)
    case ToggleSound => ToggleSoundStep(s)
    case ChooseLanguage(l) => LanguageStep(s, l)
    case Resolve(call, outcome) => ResolveStep(s, call, outcome)
    case Speech(e) => SpeechStep(s, e)
  }

  /** The screen as mounted: the initial state, and the start effect's first run. */
  function Mounted(): (o: Out)
    ensures o.requests == [Request(START_ACTION, [], English, true)]
    ensures o.session.loading && o.session.history == []
  {
    WithStartEffect(Initial(), [], [])
  }

  /** A sequence of events, with everything they send and ask for. */
  function Run(s: Session, evs: seq<Event>): (o: Out)
    ensures IsPrefix(s.history, o.session.history) && |o.session.history| <= |s.history| + |evs|
    ensures |o.requests| <= |evs|
    decreases |evs|
  {
    if |evs| == 0 then Out(s, [], [])
    else
      var first := Step(s, evs[0]);
      var rest := Run(first.session, evs[1..]);
      Out(rest.session, first.requests + rest.requests, first.tones + rest.tones)
  }

  /** The history is append-only: no event removes or rewrites a turn, and
      the only event that adds one is `Execute` with a non-blank input while
      not loading, which adds exactly that input as a user turn. */
  lemma HistoryAppendOnly(s: Session, ev: Event)
    ensures var h := Step(s, ev).session.history;
      || h == s.history
      || (ev.Execute? && !s.loading && !IsBlank(s.input) && h == s.history + [Turn(User, s.input)])
  {
  }

  /** Every request carries the session's history as it stands after the
      event, its language and its sound setting; a request with an empty history is the hidden
      start action, sent only while the history was empty. */
  lemma RequestsMatchSession(s: Session, ev: Event)
    ensures var o := Step(s, ev);
      forall r :: r in o.requests ==>
        && r.history == o.session.history
        && r.language == o.session.language
        && r.soundOn == o.session.soundOn
        && (r.history == [] ==> r.action == START_ACTION && s.history == [])
  {
  }

  /** The whole cycle of a visible action: `Execute` appends one user turn
      and sends exactly one request carrying the extended history; when the
      reply arrives, the history keeps that turn, the cleaned reply becomes
      the text to reveal, the status is its classification, and the input
      is cleared. */
  lemma ActionRoundTrip(s: Session, response: Str)
    requires !s.loading && !IsBlank(s.input)
    ensures var o1 := ExecuteStep(s);
      var o2 := ResolveStep(o1.session, o1.requests[0], Replied(response));
      && o1.requests == [Request(s.input, s.history + [Turn(User, s.input)], s.language, s.soundOn)]
      && o2.requests == []
      && o2.session.history == s.history + [Turn(User, s.input)]
      && o2.session.job.full == Clean(response)
      && o2.session.status == Classify(Clean(response), s.soundOn).status
      && o1.tones == [] && o2.tones == Classify(Clean(response), s.soundOn).tones
      && o2.session.input == [] && !o2.session.loading
  {
  }

  /** The sound button stays enabled while a call is pending. Turning the
      sound off after sending does not silence that call's verdict tone:
      the reply is handled by the closure that sent it, which still sees the
      sound on; the session itself ends with the sound off. */
  lemma ToneFollowsSendTimeSound(s: Session, response: Str)
    requires !s.loading && !IsBlank(s.input)
    ensures var o1 := ExecuteStep(s);
      var o2 := ToggleSoundStep(o1.session);
      var o3 := ResolveStep(o2.session, o1.requests[0], Replied(response));
      && o2.requests == []
      && o3.session.soundOn == !s.soundOn
      && o3.tones == Classify(Clean(response), s.soundOn).tones
  {
  }

  /** Voice input is typed input: a recognized transcript, once executed,
      is sent exactly as the same text typed into the box, the turn it adds
      is that transcript, and the microphone ends off. The start beep
      follows the sound setting at the click, not the current one. */
  lemma SpokenMoveSent(s: Session, clickSound: bool, transcript: Str)
    requires !s.loading && !IsBlank(transcript)
    ensures var o1 := SpeechStep(s, RecognitionStarted(clickSound));
      var o2 := SpeechStep(o1.session, RecognitionResult(transcript));
      var o3 := ExecuteStep(o2.session);
      && o1.tones == (if clickSound then [TypeTone] else []) && o2.tones == [] && o3.tones == []
      && o1.requests == [] && o2.requests == []
      && o3.requests == ExecuteStep(s.(input := transcript)).requests
      && o3.requests == [Request(transcript, s.history + [Turn(User, transcript)], s.language, s.soundOn)]
      && o3.session.history == s.history + [Turn(User, transcript)]
      && !o3.session.listening && o3.session.loading
  {
  }

  /** Toggling the sound between the click on the microphone and the
      recognizer's start does not change the start beep: `onstart` reads the
      sound setting its closure captured at the click, while the session
      ends with the sound flipped. */
  lemma BeepFollowsClickTimeSound(s: Session)
    ensures var o1 := ToggleSoundStep(s);
      var o2 := SpeechStep(o1.session, RecognitionStarted(s.soundOn));
      && o2.session.soundOn == !s.soundOn && o2.session.listening
      && (o2.tones == [TypeTone] <==> s.soundOn)
      && (o2.tones == [] <==> !s.soundOn)
  {
  }

  /** Any failure of the call shows the fixed sentinel as CRITICAL, asks for
      no tone, and keeps the user turn appended before the call. */
  lemma FailureKeepsUserTurn(s: Session)
    requires !s.loading && !IsBlank(s.input)
    ensures var o1 := ExecuteStep(s);
      var o2 := ResolveStep(o1.session, o1.requests[0], Raised);
      && o2.session.history == s.history + [Turn(User, s.input)]
      && o2.session.status == Critical
      && o2.session.job.full == CONNECTION_ERROR
      && o1.tones == [] && o2.tones == []
      && o2.session.input == [] && !o2.session.loading
  {
  }

  /** `sendMove` has no pending guard of its own: while a request is in
      flight, re-running the start effect (here by choosing another language
      before any user turn) sends a second hidden start request. Only the
      disabled input and button stop a second visible action. */
  lemma StartEffectRefiresWhilePending()
    ensures var m := Mounted();
      var o := Step(m.session, ChooseLanguage(Chinese));
      && m.session.loading
      && o.requests == [Request(START_ACTION, [], Chinese, true)]
      && Step(m.session, Execute) == Out(m.session, [], [])
  {
  }

  /** The typewriter job stays valid whatever happens: the displayed text is
      always a prefix of the text being revealed. */
  lemma {:induction false} RevealStaysValid(s: Session, evs: seq<Event>)
    requires Reveal.Valid(s.job)
    ensures Reveal.Valid(Run(s, evs).session.job)
    ensures IsPrefix(Run(s, evs).session.job.shown, Run(s, evs).session.job.full)
    decreases |evs|
  {
    if |evs| > 0 {
      var first := Step(s, evs[0]);
      assert Reveal.Valid(first.session.job);
      RevealStaysValid(first.session, evs[1..]);
    } else {
      assert Run(s, evs).session.job == s.job;
    }
  }

  function Ticks(n: nat): (evs: seq<Event>)
    ensures |evs| == n && forall k :: 0 <= k < n ==> evs[k] == Tick
  {
    seq(n, _ => Tick)
  }

  /** Ticks only drive the typewriter job. */
  lemma {:induction false} TicksDriveJob(s: Session, n: nat)
    ensures var o := Run(s, Ticks(n));
      && o.session == s.(job := Reveal.RunTicks(s.job, n, s.soundOn).job)
      && o.requests == []
      && |o.tones| == Reveal.RunTicks(s.job, n, s.soundOn).tones
      && forall k :: 0 <= k < |o.tones| ==> o.tones[k] == TypeTone
    decreases n
  {
    if n > 0 {
      var t := Reveal.Tick(s.job, s.soundOn);
      assert Ticks(n)[1..] == Ticks(n - 1);
      TicksDriveJob(s.(job := t.job), n - 1);
    }
  }

  /** A reply B arriving while the reveal of an earlier text A is under way
      cancels it: the displayed text restarts empty, and after one tick per
      unit of B (plus the one that clears the interval) it is exactly B, with
      nothing of A's tail left. */
  lemma NewReplySupersedesReveal(s: Session, call: Request, response: Str)
    requires Reveal.Valid(s.job) && Clean(response) != s.job.full
    ensures var r := ResolveStep(s, call, Replied(response)).session;
      && r.job.shown == [] && r.job.running
      && var o := Run(r, Ticks(|Clean(response)| + 1));
         o.session.job.shown == Clean(response) && !o.session.job.running
  {
    ReplyRestartsReveal(s, call, response);
    RestartedRevealCompletes(ResolveStep(s, call, Replied(response)).session);
  }

  /** A reply with a new text restarts the reveal on that text. */
  lemma ReplyRestartsReveal(s: Session, call: Request, response: Str)
    requires Clean(response) != s.job.full
    ensures ResolveStep(s, call, Replied(response)).session.job == Reveal.Start(Clean(response))
  {
  }

  /** A session whose reveal has just (re)started shows the whole text after
      one tick per unit and one more. */
  lemma RestartedRevealCompletes(r: Session)
    requires r.job == Reveal.Start(r.job.full)
    ensures var o := Run(r, Ticks(|r.job.full| + 1));
      o.session.job.shown == r.job.full && !o.session.job.running
  {
    TicksDriveJob(r, |r.job.full| + 1);
    Reveal.RevealFromStart(r.job.full, r.soundOn);
  }
}

=== FILE: tones.dfy ===
/** The audio feedback of the component, reduced to the event it emits: which
    of the three fixed tones `playTone` is asked to play. Oscillators, gain
    envelopes and the shared audio context are not modelled. */
module Tones {
  datatype Tone = TypeTone | ErrorTone | SuccessTone
}
